=== FILE: README.md ===
# Headcount engine of the R&D org-chart page, in Dafny

This project models the logic behind a page that reports the headcount of an engineering
organisation. The page reads one roster row per employee, with a name, a manager name, a
location, a management level and a tenure in days. It then:

- classifies each row: a level band, a country code, and a headcount type, which is BIS
  (started) or SNS (signed, not started);
- builds a name-keyed hierarchy from the (employee, manager) pairs;
- rolls BIS and SNS counts up from a chosen VP+ leader;
- emits a pre-order summary table, with a country breakdown and open-requisition columns;
- renders a nested org chart that can be filtered by a search text and by a location.

Everything is pure. Rows are a `seq`, the info map is a `map<string, Employee>`, and the
children map is a `map<string, seq<string>>`. Python's mutation of the info map becomes a map
threaded through the recursion (`Rollups.CountRollups`).

The code has no cycle guard: its recursions terminate only when the part of the manager
relation below the root is acyclic. Each recursive member here takes a ghost
`rank: map<string, nat>` with the precondition `Ranked(tree, rank)`: a manager's rank is larger
than the rank of each of its reports. `Height` is the `decreases` measure derived from it.
`Ranked` asks this of the whole children map, not only of the part below the root, so a roster
with a cycle away from the root is outside the model (see "## Left out").

Modules:

- `Wrappers`: `Option`.
- `Text`: ASCII lower-casing, substring search, decimal numerals, and the first digit run of a
  string.
- `Roster`: the row classification the roster query computes, plus `format_tenure`.
- `Sorting`: stable descending insertion sort, which is Python's `sorted(..., reverse=True)`.
- `Hierarchy`: `build_tree`, the rank discipline, descendants, and `get_all_managers`.
- `Rollups`: `count_rollups`, together with an independent description of the map it leaves.
- `Summary`: `count_country_breakdown` and `build_summary`.
- `OpenReqs`: the open-requisition join and the derived columns.
- `Chart`: `render_html_chart` as a nested datatype, plus its `<ul>` markup.
- `Pipeline`: the page's data flow (root choice, roll-up, report) and a small worked roster.
  Its lemmas about the report are stated for any hierarchy with the two properties that
  `Hierarchy.BuildTree` guarantees: every report has an entry, and every entry's counters are
  still zero.

Points of the code worth knowing:

- `build_tree` has no cycle check, so acyclicity is a precondition here.
- `build_tree` appends every row to `tree[manager]`, including a top-level row whose manager
  is missing. Here a missing manager is the empty string, and that row becomes a report of
  `""`.
- `count_rollups` raises `KeyError` only when the root manages someone but has no roster row.
  Its precondition is exactly `m in tree ==> m in info`, which is narrower than "the root has a
  row".
- The page itself raises `KeyError` whenever the root has no roster row: `build_summary` then
  returns no rows, and the requisition join reads columns of an empty frame. The page's report
  (`Pipeline.Report`, `Pipeline.HeadcountReport`) therefore requires the root to have a row.
- The country table gives two codes for Britain: `UK` for `London - UK2` and `GB` for
  `Remote - UK`. The model keeps both (`Roster.CountryBritishCodes`).

## Model

| member | source | states |
|---|---|---|
| Text.Lower | app.py:210 | lower-casing keeps the length, leaves no A-Z letter, and changes each character only in case |
| Text.LowerIdempotent | app.py:210 | lower-casing twice is lower-casing once |
| Text.LowerEqualIff | app.py:210 | two strings lower-case to the same string exactly when they are equal up to ASCII case |
| Chart.MatchesIgnoresCase | app.py:210 | the search test gives the same answer for names, and for search texts, that differ only in ASCII case |
| Text.Contains | app.py:210 | `p in s` holds exactly when `p` occurs in `s` at some position |
| Text.FirstDigitRun | app.py:235 | no value exactly when the string has no digit; otherwise the value of the maximal digit run starting at the first digit |
| Text.DecimalRoundTrip | app.py:26-28 | reading the decimal numeral of `n` gives back `n` |
| Roster.LevelsSummaryCases | app.py:23-32 | Junior iff the prefix is P or M and the suffix is a numeral in 20..40; Mid-level iff it is in 50..60; Senior iff it is at least 70; Unknown for any other prefix |
| Roster.PaddedLevelBand | app.py:26-28 | the level number is read as an integer, so a zero after the letter changes no band: `P050` is banded as `P50` |
| Roster.LevelCodeBand | app.py:23-32 | for a prefix followed by the numeral of `n`: P/M give the band of `n`, any other prefix gives Unknown, and 41..49 and 61..69 give Unknown |
| Roster.VpLeaderLevelCode | app.py:235 | for a level code, the VP+ test holds iff its number is at least 90; such a P/M code is also in the Senior band |
| Roster.CountryOf | app.py:33-102 | the code is always one of the table's codes or Unknown, and it is Unknown exactly when the location matches no entry |
| Roster.CountryExactMatch | app.py:34 | a LIKE pattern without wildcards is an exact match: a trailing space no longer matches |
| Roster.CountryCaseSensitive | app.py:34 | the match is case-sensitive |
| Roster.CountryBritishCodes | app.py:39-62 | London - UK2 maps to UK while Remote - UK maps to GB |
| Roster.CountryExamples | app.py:42 | Bengaluru - BLR1 maps to IN |
| Roster.RoundThirtieths | app.py:126 | the rounded month count is within half a month of `r/30`, and an exact half rounds to the even neighbour |
| Roster.FormatTenure | app.py:124-130 | months are in 0..11; when `days mod 365` is at least 345 the years are `days div 365 + 1` and the months 0; otherwise the years are `days div 365` and the months round `(days mod 365)/30` half to even |
| Roster.TenureExamples | app.py:124-130 | 400 days is 1 y 1 mo, 364 days is 1 y 0 mo, -10 days shows 0 y 0 mo, and -30 days shows -1 y 11 mo, as floor division gives |
| Roster.Classify | app.py:22-111 | a row keeps its name, manager, level and tenure; it is SNS iff the tenure is at most 0; its country is Unknown iff the location is not in the table; its band is the band of its level |
| Sorting.SortDesc | app.py:197 | the result is descending by key and is a permutation of the input |
| Sorting.SortStable | app.py:197 | for every key value, the elements with that key keep their input order |
| Summary.SortedReportsStable | app.py:197 | the reports of a manager, sorted by total, keep the children order among equal totals |
| Summary.SortedReports | app.py:197 | the visiting order is descending by total and is a permutation of the reports |
| Hierarchy.BuildTree | app.py:132-150 | the tree's keys are the managers and the info's keys the row names; each manager's reports are the names of the rows naming it, in row order and with repeats; each entry comes from its name's last row; every report has an entry; no entry is rolled up yet |
| Hierarchy.AllManagersAreDescendants | app.py:275-281 | `get_all_managers` returns the set of all strict descendants, not only the managers |
| Rollups.CountRollups | app.py:152-167 | the roll-up changes no name and no headcount type |
| Rollups.CountRollupsTally | app.py:152-167 | the counts returned are the numbers of BIS and of SNS descendants, with multiplicity; a leaf returns zeros |
| Rollups.CountRollupsMap | app.py:152-167 | the returned map has `m` and each internal descendant of `m` carrying its own descendants' counts with total = bis + sns; every other entry, including every leaf, is unchanged |
| Rollups.CountRollupsSettles | app.py:152-167 | both of the above in one equation; for a leaf this is `(info, (0, 0))` |
| Rollups.CountRollupsIdempotent | app.py:152-167 | rolling up a second time from the same root leaves both the map and the counts as the first roll-up left them |
| Rollups.WithRollup | app.py:164-166 | a rolled-up entry's total is its BIS count plus its SNS count |
| Rollups.CountTypeSplit | app.py:160-163 | every name is BIS or SNS, so the two counts add up to the number of names |
| Summary.BreakdownIsLocations | app.py:170-181 | the breakdown of `m` is the multiset of its descendants' countries, one per occurrence, so its counts sum to the number of descendants; a leaf gives the empty multiset |
| Summary.BuildSummary | app.py:183-200 | every row copies the level and the BIS, SNS and total counters of its manager's entry |
| Summary.SummaryNames | app.py:183-200 | no rows when the root has no entry; otherwise the row names are the root and its internal descendants, each once per occurrence |
| Summary.SummaryShape | app.py:183-200 | the rows are in pre-order: the root first at its indent, all later rows deeper, and each later row's nearest shallower earlier row is one level up and is the row of its manager |
| Summary.SiblingsShareParent | app.py:196-200 | in such rows, two rows at one indent with only deeper rows between them have the same parent row |
| Summary.SummarySiblings | app.py:197 | rows of the same manager at the same depth appear by non-increasing total |
| Summary.DirectRows | app.py:196-200 | the rows one level under a manager's row are, in order, its reports that manage someone, in the visiting order of the sorted reports |
| Summary.DirectRowsStable | app.py:196-197 | among the rows one level under a manager's row, those with one total keep the order of the manager's reports |
| Summary.SummaryBreakdowns | app.py:188-194 | each row carries its manager's country breakdown |
| OpenReqs.HiringManagerName | app.py:264 | a requisition has a hiring manager exactly when its list of hiring managers is non-empty, and it is the first one listed |
| OpenReqs.InScope | app.py:285 | a requisition is kept iff its first hiring manager is one of the visible managers |
| OpenReqs.InScopeCount | app.py:285-302 | after the scope filter, a manager's count is its full count when visible and 0 otherwise |
| OpenReqs.OpenReqCountZero | app.py:300-304 | a manager's open-requisition count is 0 exactly when no requisition names it first |
| OpenReqs.JoinOpenReqs | app.py:300-307 | one output row per summary row, carrying the in-scope count of its manager, BIS+SNS, and BIS+SNS plus that count |
| OpenReqs.VisibleManagers | app.py:283-284 | the visible names are the root and its descendants |
| OpenReqs.SummaryManagersVisible | app.py:283-298 | every summary row's manager is visible |
| OpenReqs.JoinCountsAll | app.py:283-307 | on the root's summary, the scope filter loses nothing: each row counts every requisition of its manager |
| Chart.RenderChart | app.py:202-204 | nothing (the empty string) exactly when the name manages no one |
| Chart.MarkupEmpty | app.py:214 | the rendered list is `<ul></ul>` exactly when it has no items |
| Chart.StrippedMarkupEmpty | app.py:214 | the stripped list equals `<ul></ul>` exactly when it has no items, because the markup starts with `<` and ends with `>` |
| Chart.ChartSound | app.py:202-224 | every item at any depth is a descendant and carries its entry; it nests exactly its own chart when internal; it passes the location filter itself; under a search it matches or has items nested |
| Chart.ChartKept | app.py:206-215 | a report is shown directly under its manager iff its own location passes and, under a search, it matches or its own chart is non-empty |
| Chart.ChartUnfiltered | app.py:202-224 | with no filter, the chart shows every descendant, each once per occurrence |
| Chart.ChartFinds | app.py:210-215 | under a search alone, every descendant whose name contains the search text, ignoring case, is shown |
| Chart.ChartTopLevel | app.py:206-215 | under any filters, the items directly under `m` are, in order and with repeats, the reports in visiting order that the filters keep; without a search, those at the filtered location |
| Chart.ChartTopLevelStable | app.py:206-215 | under any filters, the items directly under `m` with one total keep the order of `m`'s reports |
| Chart.ChartOrdered | app.py:206 | items directly under `m` appear by non-increasing total |
| Pipeline.VpLeaders | app.py:235 | a name is offered iff some row of that name passes the VP+ test |
| Pipeline.ChooseRoot | app.py:249-252 | the chosen leader when it has an entry, otherwise the fallback name |
| Pipeline.PageRows | app.py:253-298 | no rows when the root has no entry; otherwise the root's row first at indent 0, and one row per manager among the root and its descendants |
| Pipeline.Report | app.py:298-307 | for a root with a roster row, one report row per summary row, the root's first |
| Pipeline.HeadcountReport | app.py:248-307 | from the roster rows, classified and built into a hierarchy, and a chosen root with a roster row: a non-empty report whose first row is that root's |
| Pipeline.RowTallies | app.py:253-298 | on the page, each manager's row carries its descendants' BIS and SNS counts, and its total is the number of descendants |
| Pipeline.RowCountries | app.py:188-194 | each row's countries are its manager's descendants' countries, and for a manager they sum to the row's total |
| Pipeline.RolledUpTotals | app.py:164-166 | after the roll-up every entry's total is its BIS plus its SNS |
| Pipeline.ReportColumns | app.py:300-307 | each report row's open requisitions are all those of its manager, and its BIS+SNS is its total |
| Pipeline.ExampleBuild | app.py:132-150 | a three-row roster builds the expected maps |
| Pipeline.ExampleRollup | app.py:152-167 | in that roster the top manager rolls up one BIS and one SNS |
| Pipeline.ExampleBreakdown | app.py:170-181 | and that manager's breakdown is one US and one IN |

## Left out

- The Streamlit page, its layout, expanders, CSS and JavaScript, and the `&nbsp;` indentation of
  the manager column: presentation, not logic.
- The database connection, `pd.read_sql`, secrets, `.env` loading and caching: I/O. Both
  queries' results become inputs: `RosterRow`s for the roster and `OpenReq`s for the
  requisitions.
- The requisition query's own filters (department, open status, non-intern): they run inside
  the database, so the model takes the requisitions as already filtered.
- `CURRENT_DATE` and `DATEDIFF`: the tenure is an input day count.
- Spark's `CAST` of a malformed or out-of-range level suffix: a suffix that is not a non-empty
  run of ASCII digits gives Unknown, and numerals are unbounded.
- The VP+ test converts the digit run to a float before comparing it with 90. The conversion
  is not modelled: it is monotone and 90 is exact, so it gives the same answer as the exact
  integer comparison the model makes, even for runs that round or overflow to infinity.
- `str.lower()` on non-ASCII letters: only A-Z are lower-cased.
- The exact HTML of the chart items (hc_type, level, tenure, counters, arrows, search links)
  and the missing HTML escaping: the chart is a nested datatype whose items carry the
  entry, and `Chart.Markup` keeps only the `<ul>`/`<li>` nesting and the names.
- The root item the page wraps around the chart, and the page's `info_map[root_person]` lookup
  for it: presentation around `render_html_chart`. The page always calls the chart without
  filters; the model takes both filters as parameters.
- The selectbox's default index and the sorted order of the leader list: UI. The chosen leader
  is an input `Option<string>`, where `None` means no choice.
- pandas mechanics (`value_counts`, `map`, `fillna`, the spread of the country dictionary into
  columns, and the country table's fill with 0): the model keeps the counts as a multiset
  and as integers.
- Recomputation cost: the source calls `count_country_breakdown` afresh for each summary row.
  The model computes the same values and does not model the cost.
- Pipeline.HeadcountReport: its own contract states the shape of the report; what its rows
  hold is stated by `Pipeline.ReportColumns`, `Pipeline.RowTallies` and `Pipeline.RowCountries`.
  Like every recursive member it requires `Ranked` of the whole children map, so a roster with
  a cycle that the root cannot reach is outside the model, although the page would render it.
- Pipeline.Report: the page's `KeyError` for a root without a roster row is modelled as a
  precondition, not as an error result.
- The VP+ test's `str.extract(r'(\d+)')` matches every Unicode decimal digit (for example
  Arabic-Indic digits); `Text.IsDigit` accepts only `0`-`9`, so levels written with other digits
  are not modelled.

=== FILE: chart.dfy ===
/**
 * The nested org chart: under a manager, its reports by descending total, each a list item that
 * nests its own chart when it manages anyone. A location filter drops a report whose own
 * location differs, with everything under it; a search filter keeps a report whose name
 * contains the search text, ignoring case, or that still has something under it.
 */
module Chart {
  import opened Wrappers
  import opened Text
  import opened Sorting
  import opened Hierarchy
  import opened Summary

  /** One list item: an internal node with its nested list, or a leaf. */
  datatype ChartNode =
    | Branch(name: string, data: Employee, reports: seq<ChartNode>)
    | Leaf(name: string, data: Employee)

  /** A filter is in force when given and non-empty, as Python's truthiness has it. */
  predicate IsSet(f: Option<string>) {
    f.Some? && f.value != ""
  }

  /** The search test: `f.lower() in name.lower()`. */
  predicate Matches(name: string, f: string) {
    Contains(Lower(name), Lower(f))
  }

  /** The search test does not see ASCII case, neither in the name nor in the search text. */
  lemma MatchesIgnoresCase(name: string, name': string, f: string, f': string)
    requires EqualIgnoringCase(name, name') && EqualIgnoringCase(f, f')
    ensures Matches(name, f) <==> Matches(name', f')
  {
    LowerEqualIff(name, name');
    LowerEqualIff(f, f');
  }

  /** `render_html_chart`: nothing at all ("") for a name that manages no one, else its list. */
  function RenderChart(info: InfoMap, tree: Tree, ghost rank: map<string, nat>, m: string, search: Option<string>, loc: Option<string>): (r: Option<seq<ChartNode>>)
    requires Ranked(tree, rank) && ChildrenKnown(info, tree)
    ensures r.None? <==> m !in tree
    ensures r.Some? ==> r.value == ChartOf(info, tree, rank, m, search, loc)
  {
    if m !in tree then None else Some(ChartOf(info, tree, rank, m, search, loc))
  }

  /** The items of the list of `m`; none for a leaf. */
  function ChartOf(info: InfoMap, tree: Tree, ghost rank: map<string, nat>, m: string, search: Option<string>, loc: Option<string>): seq<ChartNode>
    requires Ranked(tree, rank) && ChildrenKnown(info, tree)
    decreases Height(tree, rank, m), 1, 0
  {
    if m !in tree then []
    else
      ChildrenBelow(tree, rank, m);
      ChartList(info, tree, rank, SortedReports(info, tree, m), search, loc, Height(tree, rank, m))
  }

  /** The items for the reports `cs`, in their order, each kept or dropped by the filters. */
  function ChartList(info: InfoMap, tree: Tree, ghost rank: map<string, nat>, cs: seq<string>, search: Option<string>, loc: Option<string>, ghost bound: nat): seq<ChartNode>
    requires Ranked(tree, rank) && ChildrenKnown(info, tree) && Below(tree, rank, cs, bound)
    requires forall c :: c in cs ==> c in info
    decreases bound, 0, |cs|
  {
    if cs == [] then []
    else
      var rest := ChartList(info, tree, rank, cs[1..], search, loc, bound);
      var emp := cs[0];
      var data := info[emp];
      if IsSet(loc) && data.location != loc.value then rest
      else if emp in tree then
        var sub := ChartOf(info, tree, rank, emp, search, loc);
        if IsSet(search) && !Matches(emp, search.value) && sub == [] then rest
        else [Branch(emp, data, sub)] + rest
      else if IsSet(search) && !Matches(emp, search.value) then rest
      else [Leaf(emp, data)] + rest
  }

  // ----- markup -----

  /** The `<ul>…</ul>` text of a list; item labels are reduced to the name. */
  function Markup(nodes: seq<ChartNode>): string
    decreases nodes, 1
  {
    "<ul>" + Items(nodes) + "</ul>"
  }

  function Items(nodes: seq<ChartNode>): string
    decreases nodes, 0
  {
    if nodes == [] then "" else Item(nodes[0]) + Items(nodes[1..])
  }

  function Item(n: ChartNode): string
    decreases n
  {
    match n
    case Leaf(name, _) => "<li>" + name + "</li>"
    case Branch(name, _, reports) => "<li>" + name + Markup(reports) + "</li>"
  }

  /** The test `subtree.strip() == "<ul></ul>"` holds exactly for an empty list. */
  lemma MarkupEmpty(nodes: seq<ChartNode>)
    ensures Markup(nodes) == "<ul></ul>" <==> nodes == []
  {
    if nodes != [] {
      assert |Item(nodes[0])| >= 9;
      assert |Markup(nodes)| > 9;
    }
  }

  /** The markup is never padded: it opens with `<` and closes with `>`. */
  lemma MarkupTrimmed(nodes: seq<ChartNode>)
    ensures Markup(nodes)[0] == '<' && Markup(nodes)[|Markup(nodes)| - 1] == '>'
  {
  }

  /**
   * The page's emptiness test strips the rendered list before comparing it with `<ul></ul>`;
   * since the markup is never padded, the test holds exactly when the list has no items,
   * which is the `sub == []` test of `ChartList`.
   */
  lemma StrippedMarkupEmpty(nodes: seq<ChartNode>)
    ensures Strip(Markup(nodes)) == "<ul></ul>" <==> nodes == []
  {
    MarkupTrimmed(nodes);
    MarkupEmpty(nodes);
    StripUnpadded(Markup(nodes));
  }

  // ----- what the chart contains -----

  /** Every item of the chart, at any depth, in document order. */
  function AllNodes(nodes: seq<ChartNode>): seq<ChartNode>
    decreases nodes
  {
    if nodes == [] then []
    else
      var n := nodes[0];
      [n] + (if n.Branch? then AllNodes(n.reports) else []) + AllNodes(nodes[1..])
  }

  /** The names of the items. */
  function NodeNames(nodes: seq<ChartNode>): (r: seq<string>)
    ensures |r| == |nodes| && forall i :: 0 <= i < |nodes| ==> r[i] == nodes[i].name
  {
    seq(|nodes|, i requires 0 <= i < |nodes| => nodes[i].name)
  }

  lemma AllNodesCons(n: ChartNode, rest: seq<ChartNode>)
    ensures AllNodes([n] + rest) == [n] + (if n.Branch? then AllNodes(n.reports) else []) + AllNodes(rest)
  {
    assert ([n] + rest)[0] == n;
    assert ([n] + rest)[1..] == rest;
  }

  lemma NamesAppend(a: seq<ChartNode>, b: seq<ChartNode>)
    ensures NodeNames(a + b) == NodeNames(a) + NodeNames(b)
  {
  }

  /** One list step of `ChartList`, seen from the items it produces. */
  lemma ChartListUnfold(info: InfoMap, tree: Tree, rank: map<string, nat>, cs: seq<string>, search: Option<string>, loc: Option<string>, bound: nat)
    requires Ranked(tree, rank) && ChildrenKnown(info, tree) && Below(tree, rank, cs, bound)
    requires forall c :: c in cs ==> c in info
    requires cs != []
    ensures Below(tree, rank, cs[1..], bound) && Height(tree, rank, cs[0]) < bound
    ensures var r := ChartList(info, tree, rank, cs, search, loc, bound);
      var rest := ChartList(info, tree, rank, cs[1..], search, loc, bound);
      r == rest || r == [Kept(info, tree, rank, cs[0], search, loc)] + rest
    ensures var r := ChartList(info, tree, rank, cs, search, loc, bound);
      var rest := ChartList(info, tree, rank, cs[1..], search, loc, bound);
      r != rest <==> KeepsNode(info, tree, rank, cs[0], search, loc)
  {
    var r := ChartList(info, tree, rank, cs, search, loc, bound);
    var rest := ChartList(info, tree, rank, cs[1..], search, loc, bound);
    if KeepsNode(info, tree, rank, cs[0], search, loc) {
      assert r == [Kept(info, tree, rank, cs[0], search, loc)] + rest;
      assert |r| == |rest| + 1;
    }
  }

  /** The item a kept report becomes. */
  function Kept(info: InfoMap, tree: Tree, ghost rank: map<string, nat>, emp: string, search: Option<string>, loc: Option<string>): ChartNode
    requires Ranked(tree, rank) && ChildrenKnown(info, tree) && emp in info
  {
    if emp in tree then Branch(emp, info[emp], ChartOf(info, tree, rank, emp, search, loc)) else Leaf(emp, info[emp])
  }

  /** Whether the filters keep the report `emp`. */
  predicate KeepsNode(info: InfoMap, tree: Tree, ghost rank: map<string, nat>, emp: string, search: Option<string>, loc: Option<string>)
    requires Ranked(tree, rank) && ChildrenKnown(info, tree) && emp in info
  {
    && !(IsSet(loc) && info[emp].location != loc.value)
    && (!IsSet(search) || Matches(emp, search.value) || (emp in tree && ChartOf(info, tree, rank, emp, search, loc) != []))
  }

  /**
   * What every item of the chart of a node satisfies: it carries the entry of its name, nests
   * exactly the chart of its name when that name manages anyone, passes the location filter
   * itself, and under a search either matches or still has something nested.
   */
  ghost predicate NodeOk(info: InfoMap, tree: Tree, rank: map<string, nat>, n: ChartNode, search: Option<string>, loc: Option<string>)
    requires Ranked(tree, rank) && ChildrenKnown(info, tree)
  {
    && n.name in info && n.data == info[n.name]
    && (n.Branch? <==> n.name in tree)
    && (n.Branch? ==> n.reports == ChartOf(info, tree, rank, n.name, search, loc))
    && (IsSet(loc) ==> n.data.location == loc.value)
    && (IsSet(search) ==> Matches(n.name, search.value) || (n.Branch? && n.reports != []))
  }

  /** Every item of the chart of `m` is a descendant of `m` and satisfies `NodeOk`. */
  lemma {:induction false} ChartSound(info: InfoMap, tree: Tree, rank: map<string, nat>, m: string, search: Option<string>, loc: Option<string>)
    requires Ranked(tree, rank) && ChildrenKnown(info, tree)
    ensures forall n :: n in AllNodes(ChartOf(info, tree, rank, m, search, loc)) ==>
      n.name in Descendants(tree, rank, m) && NodeOk(info, tree, rank, n, search, loc)
    decreases Height(tree, rank, m), 1, 0
  {
    if m in tree {
      var cs := SortedReports(info, tree, m);
      var bound := Height(tree, rank, m);
      ChildrenBelow(tree, rank, m);
      ChartListSound(info, tree, rank, cs, search, loc, bound);
      DescendantsOfPerm(tree, rank, cs, tree[m], bound);
      forall d | d in DescendantsOf(tree, rank, cs, bound) ensures d in Descendants(tree, rank, m) {
        assert d in multiset(DescendantsOf(tree, rank, cs, bound));
      }
    }
  }

  lemma {:induction false} ChartListSound(info: InfoMap, tree: Tree, rank: map<string, nat>, cs: seq<string>, search: Option<string>, loc: Option<string>, bound: nat)
    requires Ranked(tree, rank) && ChildrenKnown(info, tree) && Below(tree, rank, cs, bound)
    requires forall c :: c in cs ==> c in info
    ensures forall n :: n in AllNodes(ChartList(info, tree, rank, cs, search, loc, bound)) ==>
      n.name in DescendantsOf(tree, rank, cs, bound) && NodeOk(info, tree, rank, n, search, loc)
    decreases bound, 0, |cs|
  {
    if cs != [] {
      ChartListUnfold(info, tree, rank, cs, search, loc, bound);
      ChartListSound(info, tree, rank, cs[1..], search, loc, bound);
      ChartSound(info, tree, rank, cs[0], search, loc);
      SoundStep(info, tree, rank, cs, search, loc, bound);
    }
  }

  /** One report of `ChartListSound`, given the claim for the rest and for the report. */
  lemma SoundStep(info: InfoMap, tree: Tree, rank: map<string, nat>, cs: seq<string>, search: Option<string>, loc: Option<string>, bound: nat)
    requires Ranked(tree, rank) && ChildrenKnown(info, tree) && Below(tree, rank, cs, bound)
    requires forall c :: c in cs ==> c in info
    requires cs != [] && Below(tree, rank, cs[1..], bound) && Height(tree, rank, cs[0]) < bound
    requires forall n :: n in AllNodes(ChartList(info, tree, rank, cs[1..], search, loc, bound)) ==>
      n.name in DescendantsOf(tree, rank, cs[1..], bound) && NodeOk(info, tree, rank, n, search, loc)
    requires forall n :: n in AllNodes(ChartOf(info, tree, rank, cs[0], search, loc)) ==>
      n.name in Descendants(tree, rank, cs[0]) && NodeOk(info, tree, rank, n, search, loc)
    ensures forall n :: n in AllNodes(ChartList(info, tree, rank, cs, search, loc, bound)) ==>
      n.name in DescendantsOf(tree, rank, cs, bound) && NodeOk(info, tree, rank, n, search, loc)
  {
    var rest := ChartList(info, tree, rank, cs[1..], search, loc, bound);
    assert DescendantsOf(tree, rank, cs, bound) == [cs[0]] + Descendants(tree, rank, cs[0]) + DescendantsOf(tree, rank, cs[1..], bound);
    if KeepsNode(info, tree, rank, cs[0], search, loc) {
      var k := Kept(info, tree, rank, cs[0], search, loc);
      assert ChartList(info, tree, rank, cs, search, loc, bound) == [k] + rest;
      KeptNodes(info, tree, rank, cs[0], search, loc, rest);
      assert NodeOk(info, tree, rank, k, search, loc);
    } else {
      assert ChartList(info, tree, rank, cs, search, loc, bound) == rest;
    }
  }

  /** The items of a kept report: itself, those nested under it, then those after it. */
  lemma KeptNodes(info: InfoMap, tree: Tree, rank: map<string, nat>, emp: string, search: Option<string>, loc: Option<string>, rest: seq<ChartNode>)
    requires Ranked(tree, rank) && ChildrenKnown(info, tree) && emp in info
    ensures AllNodes([Kept(info, tree, rank, emp, search, loc)] + rest)
      == [Kept(info, tree, rank, emp, search, loc)] + AllNodes(ChartOf(info, tree, rank, emp, search, loc)) + AllNodes(rest)
  {
    var k := Kept(info, tree, rank, emp, search, loc);
    AllNodesCons(k, rest);
    if emp !in tree {
      assert ChartOf(info, tree, rank, emp, search, loc) == [];
    }
  }

  /** With no filter the chart of `m` shows every descendant of `m`, each as often as it occurs. */
  lemma {:induction false} ChartUnfiltered(info: InfoMap, tree: Tree, rank: map<string, nat>, m: string, search: Option<string>, loc: Option<string>)
    requires Ranked(tree, rank) && ChildrenKnown(info, tree)
    requires !IsSet(search) && !IsSet(loc)
    ensures multiset(NodeNames(AllNodes(ChartOf(info, tree, rank, m, search, loc)))) == multiset(Descendants(tree, rank, m))
    decreases Height(tree, rank, m), 1, 0
  {
    if m in tree {
      var cs := SortedReports(info, tree, m);
      var bound := Height(tree, rank, m);
      ChildrenBelow(tree, rank, m);
      ChartListUnfiltered(info, tree, rank, cs, search, loc, bound);
      DescendantsOfPerm(tree, rank, cs, tree[m], bound);
    }
  }

  lemma {:induction false} ChartListUnfiltered(info: InfoMap, tree: Tree, rank: map<string, nat>, cs: seq<string>, search: Option<string>, loc: Option<string>, bound: nat)
    requires Ranked(tree, rank) && ChildrenKnown(info, tree) && Below(tree, rank, cs, bound)
    requires forall c :: c in cs ==> c in info
    requires !IsSet(search) && !IsSet(loc)
    ensures multiset(NodeNames(AllNodes(ChartList(info, tree, rank, cs, search, loc, bound)))) == multiset(DescendantsOf(tree, rank, cs, bound))
    decreases bound, 0, |cs|
  {
    if cs != [] {
      ChartListUnfold(info, tree, rank, cs, search, loc, bound);
      ChartListUnfiltered(info, tree, rank, cs[1..], search, loc, bound);
      ChartUnfiltered(info, tree, rank, cs[0], search, loc);
      UnfilteredStep(info, tree, rank, cs, search, loc, bound);
    }
  }

  /** One report of `ChartListUnfiltered`, given the claim for the rest and for the report. */
  lemma UnfilteredStep(info: InfoMap, tree: Tree, rank: map<string, nat>, cs: seq<string>, search: Option<string>, loc: Option<string>, bound: nat)
    requires Ranked(tree, rank) && ChildrenKnown(info, tree) && Below(tree, rank, cs, bound)
    requires forall c :: c in cs ==> c in info
    requires cs != [] && !IsSet(search) && !IsSet(loc)
    requires Below(tree, rank, cs[1..], bound) && Height(tree, rank, cs[0]) < bound
    requires multiset(NodeNames(AllNodes(ChartList(info, tree, rank, cs[1..], search, loc, bound)))) == multiset(DescendantsOf(tree, rank, cs[1..], bound))
    requires multiset(NodeNames(AllNodes(ChartOf(info, tree, rank, cs[0], search, loc)))) == multiset(Descendants(tree, rank, cs[0]))
    ensures multiset(NodeNames(AllNodes(ChartList(info, tree, rank, cs, search, loc, bound)))) == multiset(DescendantsOf(tree, rank, cs, bound))
  {
    var rest := ChartList(info, tree, rank, cs[1..], search, loc, bound);
    var k := Kept(info, tree, rank, cs[0], search, loc);
    assert ChartList(info, tree, rank, cs, search, loc, bound) == [k] + rest;
    KeptNames(info, tree, rank, cs[0], search, loc, rest);
    SameParts(cs[0], NodeNames(AllNodes(ChartOf(info, tree, rank, cs[0], search, loc))), NodeNames(AllNodes(rest)),
      Descendants(tree, rank, cs[0]), DescendantsOf(tree, rank, cs[1..], bound));
  }

  /** The names shown by a kept report: its own, those nested under it, then those after it. */
  lemma KeptNames(info: InfoMap, tree: Tree, rank: map<string, nat>, emp: string, search: Option<string>, loc: Option<string>, rest: seq<ChartNode>)
    requires Ranked(tree, rank) && ChildrenKnown(info, tree) && emp in info
    ensures NodeNames(AllNodes([Kept(info, tree, rank, emp, search, loc)] + rest))
      == [emp] + NodeNames(AllNodes(ChartOf(info, tree, rank, emp, search, loc))) + NodeNames(AllNodes(rest))
  {
    KeptNodes(info, tree, rank, emp, search, loc, rest);
    NamesCons(Kept(info, tree, rank, emp, search, loc), AllNodes(ChartOf(info, tree, rank, emp, search, loc)), AllNodes(rest));
  }

  /** The names of an item, a list and another list, in order. */
  lemma NamesCons(k: ChartNode, a: seq<ChartNode>, b: seq<ChartNode>)
    ensures NodeNames([k] + a + b) == [k.name] + NodeNames(a) + NodeNames(b)
  {
  }

  lemma SameParts(x: string, a1: seq<string>, b1: seq<string>, a2: seq<string>, b2: seq<string>)
    requires multiset(a1) == multiset(a2) && multiset(b1) == multiset(b2)
    ensures multiset([x] + a1 + b1) == multiset([x] + a2 + b2)
  {
  }

  /**
   * Under a search alone, every descendant of `m` whose name contains the search text, ignoring
   * case, appears in the chart of `m`.
   */
  lemma {:induction false} ChartFinds(info: InfoMap, tree: Tree, rank: map<string, nat>, m: string, search: Option<string>, loc: Option<string>, d: string)
    requires Ranked(tree, rank) && ChildrenKnown(info, tree)
    requires IsSet(search) && !IsSet(loc)
    requires d in Descendants(tree, rank, m) && Matches(d, search.value)
    ensures d in NodeNames(AllNodes(ChartOf(info, tree, rank, m, search, loc)))
    decreases Height(tree, rank, m), 1, 0
  {
    var cs := SortedReports(info, tree, m);
    var bound := Height(tree, rank, m);
    ChildrenBelow(tree, rank, m);
    DescendantsOfPerm(tree, rank, cs, tree[m], bound);
    assert d in multiset(DescendantsOf(tree, rank, cs, bound));
    ChartListFinds(info, tree, rank, cs, search, loc, bound, d);
  }

  lemma {:induction false} ChartListFinds(info: InfoMap, tree: Tree, rank: map<string, nat>, cs: seq<string>, search: Option<string>, loc: Option<string>, bound: nat, d: string)
    requires Ranked(tree, rank) && ChildrenKnown(info, tree) && Below(tree, rank, cs, bound)
    requires forall c :: c in cs ==> c in info
    requires IsSet(search) && !IsSet(loc)
    requires d in DescendantsOf(tree, rank, cs, bound) && Matches(d, search.value)
    ensures d in NodeNames(AllNodes(ChartList(info, tree, rank, cs, search, loc, bound)))
    decreases bound, 0, |cs|
  {
    var r := ChartList(info, tree, rank, cs, search, loc, bound);
    var rest := ChartList(info, tree, rank, cs[1..], search, loc, bound);
    var k := Kept(info, tree, rank, cs[0], search, loc);
    ChartListUnfold(info, tree, rank, cs, search, loc, bound);
    AllNodesCons(k, rest);
    var inner := if k.Branch? then AllNodes(k.reports) else [];
    NamesAppend([k] + inner, AllNodes(rest));
    NamesAppend([k], inner);
    assert DescendantsOf(tree, rank, cs, bound) == [cs[0]] + Descendants(tree, rank, cs[0]) + DescendantsOf(tree, rank, cs[1..], bound);
    if d in DescendantsOf(tree, rank, cs[1..], bound) {
      ChartListFinds(info, tree, rank, cs[1..], search, loc, bound, d);
      if r != rest {
        assert AllNodes(r) == [k] + inner + AllNodes(rest);
      }
    } else if d == cs[0] {
      assert r == [k] + rest;
      assert NodeNames(AllNodes(r))[0] == d;
    } else {
      assert d in Descendants(tree, rank, cs[0]);
      assert cs[0] in tree;
      ChartFinds(info, tree, rank, cs[0], search, loc, d);
      assert ChartOf(info, tree, rank, cs[0], search, loc) != [];
      assert r == [k] + rest;
      assert d in NodeNames(inner);
    }
  }

  // ----- the top level of the chart -----

  /** The reports of `cs` that pass the location filter, in order. */
  function AtLocation(info: InfoMap, cs: seq<string>, loc: Option<string>): (r: seq<string>)
    requires forall c :: c in cs ==> c in info
    ensures forall x :: x in r <==> x in cs && (!IsSet(loc) || info[x].location == loc.value)
  {
    if cs == [] then []
    else
      assert forall x :: x in cs <==> x == cs[0] || x in cs[1..];
      (if IsSet(loc) && info[cs[0]].location != loc.value then [] else [cs[0]]) + AtLocation(info, cs[1..], loc)
  }

  /** The filters' verdict on a name, as a test over all names. */
  function KeepTest(info: InfoMap, tree: Tree, ghost rank: map<string, nat>, search: Option<string>, loc: Option<string>): string -> bool
    requires Ranked(tree, rank) && ChildrenKnown(info, tree)
  {
    c => c in info && KeepsNode(info, tree, rank, c, search, loc)
  }

  /** The reports of `cs` that the filters keep, in order. */
  function KeptReports(info: InfoMap, tree: Tree, ghost rank: map<string, nat>, cs: seq<string>, search: Option<string>, loc: Option<string>): (r: seq<string>)
    requires Ranked(tree, rank) && ChildrenKnown(info, tree)
    ensures forall x :: x in r <==> x in cs && x in info && KeepsNode(info, tree, rank, x, search, loc)
  {
    Select(cs, KeepTest(info, tree, rank, search, loc))
  }

  /** Without a search, the filters keep exactly the reports at the filtered location. */
  lemma {:induction false} KeptAtLocation(info: InfoMap, tree: Tree, rank: map<string, nat>, cs: seq<string>, search: Option<string>, loc: Option<string>)
    requires Ranked(tree, rank) && ChildrenKnown(info, tree)
    requires forall c :: c in cs ==> c in info
    requires !IsSet(search)
    ensures KeptReports(info, tree, rank, cs, search, loc) == AtLocation(info, cs, loc)
  {
    if cs != [] {
      KeptAtLocation(info, tree, rank, cs[1..], search, loc);
    }
  }

  /**
   * The items directly under `m` are, in order and with repeats, the reports in the visiting
   * order of `SortedReports` that the filters keep; without a search, those at the location.
   */
  lemma ChartTopLevel(info: InfoMap, tree: Tree, rank: map<string, nat>, m: string, search: Option<string>, loc: Option<string>)
    requires Ranked(tree, rank) && ChildrenKnown(info, tree)
    ensures NodeNames(ChartOf(info, tree, rank, m, search, loc)) == KeptReports(info, tree, rank, SortedReports(info, tree, m), search, loc)
    ensures !IsSet(search) ==> NodeNames(ChartOf(info, tree, rank, m, search, loc)) == AtLocation(info, SortedReports(info, tree, m), loc)
  {
    if m in tree {
      ChildrenBelow(tree, rank, m);
      ChartListTopLevel(info, tree, rank, SortedReports(info, tree, m), search, loc, Height(tree, rank, m));
    } else {
      assert SortedReports(info, tree, m) == [] by {
        assert |SortedReports(info, tree, m)| == |multiset(Children(tree, m))| == 0;
      }
    }
    if !IsSet(search) {
      KeptAtLocation(info, tree, rank, SortedReports(info, tree, m), search, loc);
    }
  }

  /**
   * The items directly under `m` with one total appear in the order of `m`'s reports, as the
   * stable sort leaves ties, under any filters.
   */
  lemma ChartTopLevelStable(info: InfoMap, tree: Tree, rank: map<string, nat>, m: string, search: Option<string>, loc: Option<string>, k: int)
    requires Ranked(tree, rank) && ChildrenKnown(info, tree)
    ensures WithKey(NodeNames(ChartOf(info, tree, rank, m, search, loc)), TotalKey(info), k)
      == KeptReports(info, tree, rank, WithKey(Children(tree, m), TotalKey(info), k), search, loc)
  {
    ChartTopLevel(info, tree, rank, m, search, loc);
    SelectWithKey(SortedReports(info, tree, m), KeepTest(info, tree, rank, search, loc), TotalKey(info), k);
    SortedReportsStable(info, tree, m, k);
  }

  lemma {:induction false} ChartListTopLevel(info: InfoMap, tree: Tree, rank: map<string, nat>, cs: seq<string>, search: Option<string>, loc: Option<string>, bound: nat)
    requires Ranked(tree, rank) && ChildrenKnown(info, tree) && Below(tree, rank, cs, bound)
    requires forall c :: c in cs ==> c in info
    ensures NodeNames(ChartList(info, tree, rank, cs, search, loc, bound)) == KeptReports(info, tree, rank, cs, search, loc)
    decreases |cs|
  {
    if cs != [] {
      TopNames(info, tree, rank, cs, search, loc, bound);
      ChartListTopLevel(info, tree, rank, cs[1..], search, loc, bound);
    }
  }

  /** The names directly under a list of reports: the first one's if it is kept, then the rest's. */
  lemma TopNames(info: InfoMap, tree: Tree, rank: map<string, nat>, cs: seq<string>, search: Option<string>, loc: Option<string>, bound: nat)
    requires Ranked(tree, rank) && ChildrenKnown(info, tree) && Below(tree, rank, cs, bound)
    requires forall c :: c in cs ==> c in info
    requires cs != []
    ensures Below(tree, rank, cs[1..], bound)
    ensures NodeNames(ChartList(info, tree, rank, cs, search, loc, bound))
      == (if KeepsNode(info, tree, rank, cs[0], search, loc) then [cs[0]] else []) + NodeNames(ChartList(info, tree, rank, cs[1..], search, loc, bound))
  {
    var rest := ChartList(info, tree, rank, cs[1..], search, loc, bound);
    var k := Kept(info, tree, rank, cs[0], search, loc);
    ChartListUnfold(info, tree, rank, cs, search, loc, bound);
    NamesAppend([k], rest);
    assert NodeNames([k]) == [cs[0]];
  }

  /**
   * A report of `m` is shown directly under `m` exactly when the filters keep it: its own
   * location passes, and under a search it matches or something under it is still shown.
   */
  lemma ChartKept(info: InfoMap, tree: Tree, rank: map<string, nat>, m: string, search: Option<string>, loc: Option<string>)
    requires Ranked(tree, rank) && ChildrenKnown(info, tree)
    ensures forall c :: c in NodeNames(ChartOf(info, tree, rank, m, search, loc)) <==>
      c in Children(tree, m) && c in info && KeepsNode(info, tree, rank, c, search, loc)
  {
    if m in tree {
      ChildrenBelow(tree, rank, m);
      ChartListKept(info, tree, rank, SortedReports(info, tree, m), search, loc, Height(tree, rank, m));
    }
  }

  lemma {:induction false} ChartListKept(info: InfoMap, tree: Tree, rank: map<string, nat>, cs: seq<string>, search: Option<string>, loc: Option<string>, bound: nat)
    requires Ranked(tree, rank) && ChildrenKnown(info, tree) && Below(tree, rank, cs, bound)
    requires forall c :: c in cs ==> c in info
    ensures forall c :: c in NodeNames(ChartList(info, tree, rank, cs, search, loc, bound)) <==>
      c in cs && KeepsNode(info, tree, rank, c, search, loc)
    decreases |cs|
  {
    if cs != [] {
      TopNames(info, tree, rank, cs, search, loc, bound);
      ChartListKept(info, tree, rank, cs[1..], search, loc, bound);
      assert forall c :: c in cs <==> c == cs[0] || c in cs[1..];
    }
  }

  /** Items directly under `m` come by non-increasing total; `ChartTopLevelStable` states the order of ties. */
  lemma ChartOrdered(info: InfoMap, tree: Tree, rank: map<string, nat>, m: string, search: Option<string>, loc: Option<string>)
    requires Ranked(tree, rank) && ChildrenKnown(info, tree)
    ensures SortedDesc(NodeNames(ChartOf(info, tree, rank, m, search, loc)), TotalKey(info))
  {
    if m in tree {
      ChildrenBelow(tree, rank, m);
      ChartListOrdered(info, tree, rank, SortedReports(info, tree, m), search, loc, Height(tree, rank, m));
    }
  }

  lemma {:induction false} ChartListOrdered(info: InfoMap, tree: Tree, rank: map<string, nat>, cs: seq<string>, search: Option<string>, loc: Option<string>, bound: nat)
    requires Ranked(tree, rank) && ChildrenKnown(info, tree) && Below(tree, rank, cs, bound)
    requires forall c :: c in cs ==> c in info
    requires SortedDesc(cs, TotalKey(info))
    ensures SortedDesc(NodeNames(ChartList(info, tree, rank, cs, search, loc, bound)), TotalKey(info))
    ensures forall x :: x in NodeNames(ChartList(info, tree, rank, cs, search, loc, bound)) ==> x in cs
    decreases |cs|
  {
    if cs != [] {
      TopNames(info, tree, rank, cs, search, loc, bound);
      ChartListOrdered(info, tree, rank, cs[1..], search, loc, bound);
      SubsequenceCons(cs, NodeNames(ChartList(info, tree, rank, cs[1..], search, loc, bound)), TotalKey(info));
    }
  }

  /**
   * Keeping or dropping the head of a descending sequence, in front of a descending selection
   * from its tail, gives a descending selection from the whole.
   */
  lemma SubsequenceCons<T>(cs: seq<T>, rest: seq<T>, key: T -> int)
    requires cs != [] && SortedDesc(cs, key)
    requires SortedDesc(rest, key) && forall x :: x in rest ==> x in cs[1..]
    ensures SortedDesc([cs[0]] + rest, key) && forall x :: x in [cs[0]] + rest ==> x in cs
    ensures forall x :: x in rest ==> x in cs
  {
    SortedHeadMax(cs, key);
    assert forall x :: x in cs[1..] ==> x in cs;
    SortedCons(cs[0], rest, key);
  }
}

=== FILE: hierarchy.dfy ===
/**
 * The name-keyed hierarchy: the employee record of each name, the ordered reports of each
 * manager, and the descendants of a node.
 *
 * The source never checks the manager relation for cycles; every traversal terminates only
 * because the relation is acyclic. The model states that as a precondition: a `rank` on names
 * that strictly decreases from a manager to each report that has reports of its own.
 */
module Hierarchy {
  import opened Roster

  /** One entry of the info map: the row's attributes plus the roll-up counters. */
  datatype Employee = Employee(
    name: string,
    manager: string,
    hcType: HcType,
    location: string,
    level: string,
    tenure: Tenure,
    bis: nat,
    sns: nat,
    total: nat)

  /** Employee record by name. */
  type InfoMap = map<string, Employee>

  /** Report names by manager name; a name is "internal" exactly when it is a key. */
  type Tree = map<string, seq<string>>

  /** The info entry a row creates, its counters still zero. */
  function NewEmployee(r: Record): Employee {
    Employee(r.name, r.manager, r.hcType, r.country, r.level, FormatTenure(r.tenureDays), 0, 0, 0)
  }

  /** The counters of an entry before any roll-up: all zero. */
  predicate NotRolledUp(e: Employee) {
    e.bis == 0 && e.sns == 0 && e.total == 0
  }

  /** The managers named by the rows. */
  function Managers(rows: seq<Record>): set<string> {
    set i | 0 <= i < |rows| :: rows[i].manager
  }

  /** The employee names of the rows. */
  function Names(rows: seq<Record>): set<string> {
    set i | 0 <= i < |rows| :: rows[i].name
  }

  /** The names of the rows whose manager is `m`, in row order, repeated names included. */
  function ReportsOf(rows: seq<Record>, m: string): seq<string> {
    if rows == [] then []
    else
      var last := rows[|rows| - 1];
      ReportsOf(rows[..|rows| - 1], m) + (if last.manager == m then [last.name] else [])
  }

  lemma {:induction false} ReportsOfNone(rows: seq<Record>, m: string)
    requires m !in Managers(rows)
    ensures ReportsOf(rows, m) == []
  {
    if rows != [] {
      assert Managers(rows[..|rows| - 1]) <= Managers(rows) by {
        forall n | n in Managers(rows[..|rows| - 1]) ensures n in Managers(rows) {
          var i :| 0 <= i < |rows| - 1 && rows[..|rows| - 1][i].manager == n;
          assert rows[i].manager == n;
        }
      }
      assert rows[|rows| - 1].manager in Managers(rows);
      ReportsOfNone(rows[..|rows| - 1], m);
    }
  }

  /** Row `i` is the last row carrying its name. */
  ghost predicate LastWithName(rows: seq<Record>, i: int)
    requires 0 <= i < |rows|
  {
    forall j :: i < j < |rows| ==> rows[j].name != rows[i].name
  }

  /** Every report named in the tree has an info entry. */
  ghost predicate ChildrenKnown(info: InfoMap, tree: Tree) {
    forall m, c :: m in tree && c in tree[m] ==> c in info
  }

  /** The reports of every manager are its rows' names in row order. */
  ghost predicate ReportsFrom(rows: seq<Record>, tree: Tree) {
    forall m :: m in tree ==> tree[m] == ReportsOf(rows, m)
  }

  /** The entry of every name comes from the last row carrying it. */
  ghost predicate EntriesFrom(rows: seq<Record>, info: InfoMap) {
    forall i :: 0 <= i < |rows| && LastWithName(rows, i) ==>
      rows[i].name in info && info[rows[i].name] == NewEmployee(rows[i])
  }

  /** What `build_tree` promises about the maps it returns for `rows`. */
  ghost predicate BuiltFrom(rows: seq<Record>, info: InfoMap, tree: Tree) {
    && tree.Keys == Managers(rows)
    && ReportsFrom(rows, tree)
    && info.Keys == Names(rows)
    && EntriesFrom(rows, info)
  }

  /**
   * `build_tree`: one pass over the rows, each row overwriting the info entry of its name and
   * appending its name to its manager's reports. The managers are the tree's keys and the row
   * names the info's keys; the reports of each manager are the names of the rows naming it, in
   * row order; each name's entry comes from its last row; every report has an entry.
   */
  function BuildTree(rows: seq<Record>): (res: (InfoMap, Tree))
    ensures BuiltFrom(rows, res.0, res.1)
    ensures ChildrenKnown(res.0, res.1)
    ensures forall n :: n in res.0 ==> NotRolledUp(res.0[n])
  {
    if rows == [] then (map[], map[])
    else
      var built := BuildTree(rows[..|rows| - 1]);
      BuildTreeStep(rows, built);
      AddRow(built, rows[|rows| - 1])
  }

  /** The body of the loop for one row. */
  function AddRow(built: (InfoMap, Tree), r: Record): (InfoMap, Tree) {
    var reports := if r.manager in built.1 then built.1[r.manager] else [];
    (built.0[r.name := NewEmployee(r)], built.1[r.manager := reports + [r.name]])
  }

  /** Appending one row to the input keeps what `BuildTree` promises. */
  lemma BuildTreeStep(rows: seq<Record>, built: (InfoMap, Tree))
    requires rows != []
    requires BuiltFrom(rows[..|rows| - 1], built.0, built.1) && ChildrenKnown(built.0, built.1)
    ensures BuiltFrom(rows, AddRow(built, rows[|rows| - 1]).0, AddRow(built, rows[|rows| - 1]).1)
    ensures ChildrenKnown(AddRow(built, rows[|rows| - 1]).0, AddRow(built, rows[|rows| - 1]).1)
  {
    SnocKeys(rows);
    AddRowReports(rows, built.1);
    AddRowEntries(rows, built.0);
  }

  /** The managers and names of the rows grow by those of the last row. */
  lemma SnocKeys(rows: seq<Record>)
    requires rows != []
    ensures Managers(rows) == Managers(rows[..|rows| - 1]) + {rows[|rows| - 1].manager}
    ensures Names(rows) == Names(rows[..|rows| - 1]) + {rows[|rows| - 1].name}
  {
    var prefix := rows[..|rows| - 1];
    forall n | n in Managers(rows) ensures n in Managers(prefix) + {rows[|rows| - 1].manager} {
      var i :| 0 <= i < |rows| && rows[i].manager == n;
      if i < |prefix| {
        assert prefix[i] == rows[i];
      }
    }
    forall n | n in Managers(prefix) ensures n in Managers(rows) {
      var i :| 0 <= i < |prefix| && prefix[i].manager == n;
      assert rows[i] == prefix[i];
    }
    forall n | n in Names(rows) ensures n in Names(prefix) + {rows[|rows| - 1].name} {
      var i :| 0 <= i < |rows| && rows[i].name == n;
      if i < |prefix| {
        assert prefix[i] == rows[i];
      }
    }
    forall n | n in Names(prefix) ensures n in Names(rows) {
      var i :| 0 <= i < |prefix| && prefix[i].name == n;
      assert rows[i] == prefix[i];
    }
  }

  lemma AddRowReports(rows: seq<Record>, tree: Tree)
    requires rows != []
    requires tree.Keys == Managers(rows[..|rows| - 1]) && ReportsFrom(rows[..|rows| - 1], tree)
    ensures ReportsFrom(rows, AddRow((map[], tree), rows[|rows| - 1]).1)
  {
    var prefix, r := rows[..|rows| - 1], rows[|rows| - 1];
    var tree' := AddRow((map[], tree), r).1;
    forall m | m in tree' ensures tree'[m] == ReportsOf(rows, m) {
      if m == r.manager && r.manager !in tree {
        ReportsOfNone(prefix, m);
      }
    }
  }

  lemma AddRowEntries(rows: seq<Record>, info: InfoMap)
    requires rows != []
    requires info.Keys == Names(rows[..|rows| - 1]) && EntriesFrom(rows[..|rows| - 1], info)
    ensures EntriesFrom(rows, AddRow((info, map[]), rows[|rows| - 1]).0)
  {
    var prefix, r := rows[..|rows| - 1], rows[|rows| - 1];
    var info' := AddRow((info, map[]), r).0;
    forall i | 0 <= i < |rows| && LastWithName(rows, i)
      ensures rows[i].name in info' && info'[rows[i].name] == NewEmployee(rows[i])
    {
      if i < |prefix| {
        assert rows[i] == prefix[i];
        assert rows[i].name != r.name;
        assert LastWithName(prefix, i) by {
          forall j | i < j < |prefix| ensures prefix[j].name != prefix[i].name {
            assert rows[j] == prefix[j];
          }
        }
      }
    }
  }

  // ----- acyclicity -----

  /** `rank` strictly decreases from every manager to each of its reports that are managers. */
  ghost predicate Ranked(tree: Tree, rank: map<string, nat>) {
    && (forall m :: m in tree ==> m in rank)
    && (forall m, c :: m in tree && c in tree[m] && c in tree ==> rank[c] < rank[m])
  }

  /** The termination measure of a node: one above its rank when internal, zero for a leaf. */
  ghost function Height(tree: Tree, rank: map<string, nat>, m: string): nat {
    if m in tree && m in rank then rank[m] + 1 else 0
  }

  /** Every name in `cs` has a smaller measure than `bound`. */
  ghost predicate Below(tree: Tree, rank: map<string, nat>, cs: seq<string>, bound: nat) {
    forall c :: c in cs ==> Height(tree, rank, c) < bound
  }

  /** The reports of a node lie below it. */
  lemma ReportsBelow(tree: Tree, rank: map<string, nat>, m: string)
    requires Ranked(tree, rank) && m in tree
    ensures Below(tree, rank, tree[m], Height(tree, rank, m))
  {
  }

  /** `tree.get(m, [])`: the reports of `m`, none for a leaf. */
  function Children(tree: Tree, m: string): seq<string> {
    if m in tree then tree[m] else []
  }

  /** The reports of any node, none for a leaf, lie below it. */
  lemma ChildrenBelow(tree: Tree, rank: map<string, nat>, m: string)
    requires Ranked(tree, rank)
    ensures Below(tree, rank, Children(tree, m), Height(tree, rank, m))
  {
  }

  // ----- descendants -----

  /** All strict descendants of `m` in pre-order, with multiplicity. */
  function Descendants(tree: Tree, ghost rank: map<string, nat>, m: string): seq<string>
    requires Ranked(tree, rank)
    decreases Height(tree, rank, m), 1, 0
  {
    if m !in tree then []
    else
      ReportsBelow(tree, rank, m);
      DescendantsOf(tree, rank, tree[m], Height(tree, rank, m))
  }

  /** Each name of `cs` followed by its descendants. */
  function DescendantsOf(tree: Tree, ghost rank: map<string, nat>, cs: seq<string>, ghost bound: nat): seq<string>
    requires Ranked(tree, rank) && Below(tree, rank, cs, bound)
    decreases bound, 0, |cs|
  {
    if cs == [] then []
    else [cs[0]] + Descendants(tree, rank, cs[0]) + DescendantsOf(tree, rank, cs[1..], bound)
  }

  /** The descendants of a concatenation of report lists are the concatenation of theirs. */
  lemma {:induction false} DescendantsOfAppend(tree: Tree, rank: map<string, nat>, a: seq<string>, b: seq<string>, bound: nat)
    requires Ranked(tree, rank) && Below(tree, rank, a + b, bound)
    ensures Below(tree, rank, a, bound) && Below(tree, rank, b, bound)
    ensures DescendantsOf(tree, rank, a + b, bound) == DescendantsOf(tree, rank, a, bound) + DescendantsOf(tree, rank, b, bound)
    decreases |a|
  {
    if a == [] {
      assert a + b == b;
    } else {
      assert (a + b)[0] == a[0];
      assert (a + b)[1..] == a[1..] + b;
      DescendantsOfAppend(tree, rank, a[1..], b, bound);
    }
  }

  /** Where the first element of `a` sits in a permutation `b` of it. */
  lemma PickFirst<T>(a: seq<T>, b: seq<T>) returns (k: nat)
    requires a != [] && multiset(a) == multiset(b)
    ensures k < |b| && b[k] == a[0]
    ensures b == b[..k] + [a[0]] + b[k + 1..]
    ensures multiset(a[1..]) == multiset(b[..k] + b[k + 1..])
  {
    assert a[0] in multiset(b);
    k :| 0 <= k < |b| && b[k] == a[0];
    assert b == b[..k] + [a[0]] + b[k + 1..];
    assert multiset(b) == multiset(b[..k]) + multiset{a[0]} + multiset(b[k + 1..]);
    assert a == [a[0]] + a[1..];
    assert multiset(a) == multiset{a[0]} + multiset(a[1..]);
    assert multiset(b[..k] + b[k + 1..]) == multiset(b[..k]) + multiset(b[k + 1..]);
    assert multiset(b) == multiset{a[0]} + multiset(b[..k] + b[k + 1..]);
    var m1, m2 := multiset(a[1..]), multiset(b[..k] + b[k + 1..]);
    forall y ensures m1[y] == m2[y] {
      assert (multiset{a[0]} + m1)[y] == (multiset{a[0]} + m2)[y];
    }
    assert m1 == m2;
  }

  /**
   * Reordering a report list permutes its descendants: as a multiset they depend only on the
   * multiset of reports.
   */
  lemma {:induction false} DescendantsOfPerm(tree: Tree, rank: map<string, nat>, a: seq<string>, b: seq<string>, bound: nat)
    requires Ranked(tree, rank) && Below(tree, rank, a, bound) && Below(tree, rank, b, bound)
    requires multiset(a) == multiset(b)
    ensures multiset(DescendantsOf(tree, rank, a, bound)) == multiset(DescendantsOf(tree, rank, b, bound))
    decreases |a|
  {
    if a == [] {
      assert |b| == |multiset(b)| == 0;
    } else {
      var k := PickFirst(a, b);
      var front, back := b[..k], b[k + 1..];
      BelowDrop(tree, rank, front, a[0], back, bound);
      DescendantsOfSplit(tree, rank, front, a[0], back, bound);
      DescendantsOfPerm(tree, rank, a[1..], front + back, bound);
      assert DescendantsOf(tree, rank, a, bound) == [a[0]] + Descendants(tree, rank, a[0]) + DescendantsOf(tree, rank, a[1..], bound);
    }
  }

  /** Dropping one report from a list keeps the rest below the same bound. */
  lemma BelowDrop(tree: Tree, rank: map<string, nat>, front: seq<string>, x: string, back: seq<string>, bound: nat)
    requires Below(tree, rank, front + [x] + back, bound)
    ensures Below(tree, rank, front + back, bound) && Height(tree, rank, x) < bound
  {
    var b := front + [x] + back;
    assert x in b;
    assert forall c :: c in front + back ==> c in b;
  }

  /** The descendants of a report list with `x` in the middle: those of `x` plus those of the rest. */
  lemma DescendantsOfSplit(tree: Tree, rank: map<string, nat>, front: seq<string>, x: string, back: seq<string>, bound: nat)
    requires Ranked(tree, rank) && Below(tree, rank, front + [x] + back, bound) && Below(tree, rank, front + back, bound)
    ensures multiset(DescendantsOf(tree, rank, front + [x] + back, bound))
      == multiset([x] + Descendants(tree, rank, x)) + multiset(DescendantsOf(tree, rank, front + back, bound))
  {
    assert front + [x] + back == front + ([x] + back);
    DescendantsOfAppend(tree, rank, front, [x] + back, bound);
    DescendantsOfAppend(tree, rank, [x], back, bound);
    DescendantsOfAppend(tree, rank, front, back, bound);
    var f, m, k := DescendantsOf(tree, rank, front, bound), DescendantsOf(tree, rank, [x], bound), DescendantsOf(tree, rank, back, bound);
    assert m == [x] + Descendants(tree, rank, x) by {
      assert [x][1..] == [];
    }
    assert multiset(f + (m + k)) == multiset(m) + multiset(f + k);
  }

  function Elems(s: seq<string>): set<string> {
    set x | x in s
  }

  lemma ElemsAppend(a: seq<string>, b: seq<string>)
    ensures Elems(a + b) == Elems(a) + Elems(b)
  {
  }

  /** `get_all_managers`: the set accumulated over the reports and, recursively, their reports. */
  function GetAllManagers(tree: Tree, ghost rank: map<string, nat>, m: string): set<string>
    requires Ranked(tree, rank)
    decreases Height(tree, rank, m), 1, 0
  {
    if m !in tree then {}
    else
      ReportsBelow(tree, rank, m);
      AllManagersOf(tree, rank, tree[m], Height(tree, rank, m))
  }

  function AllManagersOf(tree: Tree, ghost rank: map<string, nat>, cs: seq<string>, ghost bound: nat): set<string>
    requires Ranked(tree, rank) && Below(tree, rank, cs, bound)
    decreases bound, 0, |cs|
  {
    if cs == [] then {}
    else {cs[0]} + GetAllManagers(tree, rank, cs[0]) + AllManagersOf(tree, rank, cs[1..], bound)
  }

  /**
   * Despite its name, `get_all_managers` returns every strict descendant, leaves included:
   * exactly the names of the pre-order descendant sequence.
   */
  lemma {:induction false} AllManagersAreDescendants(tree: Tree, rank: map<string, nat>, m: string)
    requires Ranked(tree, rank)
    ensures GetAllManagers(tree, rank, m) == Elems(Descendants(tree, rank, m))
    decreases Height(tree, rank, m), 1, 0
  {
    if m in tree {
      AllManagersOfList(tree, rank, tree[m], Height(tree, rank, m));
    }
  }

  lemma {:induction false} AllManagersOfList(tree: Tree, rank: map<string, nat>, cs: seq<string>, bound: nat)
    requires Ranked(tree, rank) && Below(tree, rank, cs, bound)
    ensures AllManagersOf(tree, rank, cs, bound) == Elems(DescendantsOf(tree, rank, cs, bound))
    decreases bound, 0, |cs|
  {
    if cs != [] {
      AllManagersAreDescendants(tree, rank, cs[0]);
      AllManagersOfList(tree, rank, cs[1..], bound);
      var d := DescendantsOf(tree, rank, cs, bound);
      assert d == [cs[0]] + Descendants(tree, rank, cs[0]) + DescendantsOf(tree, rank, cs[1..], bound);
      assert Elems(d) == {cs[0]} + Elems(Descendants(tree, rank, cs[0])) + Elems(DescendantsOf(tree, rank, cs[1..], bound));
    }
  }

  /**
   * Every descendant of `m` lies strictly below it, so no node is its own descendant, and
   * every report of `m` is a descendant.
   */
  lemma {:induction false} DescendantsBelow(tree: Tree, rank: map<string, nat>, m: string)
    requires Ranked(tree, rank)
    ensures forall d :: d in Descendants(tree, rank, m) ==> Height(tree, rank, d) < Height(tree, rank, m)
    ensures m !in Descendants(tree, rank, m)
    ensures forall c :: c in Children(tree, m) ==> c in Descendants(tree, rank, m)
    decreases Height(tree, rank, m), 1, 0
  {
    if m in tree {
      DescendantsOfBelow(tree, rank, tree[m], Height(tree, rank, m));
    }
  }

  lemma {:induction false} DescendantsOfBelow(tree: Tree, rank: map<string, nat>, cs: seq<string>, bound: nat)
    requires Ranked(tree, rank) && Below(tree, rank, cs, bound)
    ensures forall d :: d in DescendantsOf(tree, rank, cs, bound) ==> Height(tree, rank, d) < bound
    ensures forall c :: c in cs ==> c in DescendantsOf(tree, rank, cs, bound)
    decreases bound, 0, |cs|
  {
    if cs != [] {
      DescendantsBelow(tree, rank, cs[0]);
      DescendantsOfBelow(tree, rank, cs[1..], bound);
      forall c | c in cs ensures c in DescendantsOf(tree, rank, cs, bound) {
        if c != cs[0] {
          assert c in cs[1..];
        }
      }
    }
  }

  /** The descendants of an internal node are closed under taking reports. */
  lemma {:induction false} DescendantsClosed(tree: Tree, rank: map<string, nat>, m: string, d: string)
    requires Ranked(tree, rank) && d in Descendants(tree, rank, m)
    ensures forall c :: c in Children(tree, d) ==> c in Descendants(tree, rank, m)
    decreases Height(tree, rank, m), 1, 0
  {
    ReportsBelow(tree, rank, m);
    DescendantsOfClosed(tree, rank, tree[m], Height(tree, rank, m), d);
  }

  lemma {:induction false} DescendantsOfClosed(tree: Tree, rank: map<string, nat>, cs: seq<string>, bound: nat, d: string)
    requires Ranked(tree, rank) && Below(tree, rank, cs, bound) && d in DescendantsOf(tree, rank, cs, bound)
    ensures forall c :: c in Children(tree, d) ==> c in DescendantsOf(tree, rank, cs, bound)
    decreases bound, 0, |cs|
  {
    var rest := DescendantsOf(tree, rank, cs[1..], bound);
    var under := Descendants(tree, rank, cs[0]);
    assert DescendantsOf(tree, rank, cs, bound) == [cs[0]] + under + rest;
    if d == cs[0] {
      DescendantsBelow(tree, rank, cs[0]);
    } else if d in under {
      DescendantsClosed(tree, rank, cs[0], d);
    } else {
      assert d in rest;
      DescendantsOfClosed(tree, rank, cs[1..], bound, d);
    }
  }

  /** When every report has an info entry, so does every descendant. */
  lemma {:induction false} DescendantsKnown(info: InfoMap, tree: Tree, rank: map<string, nat>, m: string)
    requires Ranked(tree, rank) && ChildrenKnown(info, tree)
    ensures forall d :: d in Descendants(tree, rank, m) ==> d in info
    decreases Height(tree, rank, m), 1, 0
  {
    if m in tree {
      DescendantsOfKnown(info, tree, rank, tree[m], Height(tree, rank, m));
    }
  }

  lemma {:induction false} DescendantsOfKnown(info: InfoMap, tree: Tree, rank: map<string, nat>, cs: seq<string>, bound: nat)
    requires Ranked(tree, rank) && ChildrenKnown(info, tree) && Below(tree, rank, cs, bound)
    requires forall c :: c in cs ==> c in info
    ensures forall d :: d in DescendantsOf(tree, rank, cs, bound) ==> d in info
    decreases bound, 0, |cs|
  {
    if cs != [] {
      DescendantsKnown(info, tree, rank, cs[0]);
      DescendantsOfKnown(info, tree, rank, cs[1..], bound);
    }
  }
}

=== FILE: openreqs.dfy ===
/**
 * The open-requisition columns of the summary table: requisitions are kept when their first
 * hiring manager is the root or one of its descendants, counted per hiring manager, and
 * joined onto the summary rows with two derived sums.
 */
module OpenReqs {
  import opened Wrappers
  import opened Hierarchy
  import opened Summary

  /** One open job requisition. */
  datatype OpenReq = OpenReq(jobName: string, jobId: string, geoZone: string, hiringManagers: seq<string>)

  /** The `hiring_managers[0]` column: the first hiring manager, none for an empty list. */
  function HiringManagerName(q: OpenReq): (r: Option<string>)
    ensures r.Some? <==> q.hiringManagers != []
    ensures r.Some? ==> r.value == q.hiringManagers[0]
  {
    if q.hiringManagers == [] then None else Some(q.hiringManagers[0])
  }

  /** The requisition is credited to `name`. */
  predicate HiredBy(q: OpenReq, name: string) {
    HiringManagerName(q) == Some(name)
  }

  /** The requisitions whose hiring manager is in `visible`, in their original order. */
  function InScope(reqs: seq<OpenReq>, visible: set<string>): (r: seq<OpenReq>)
    ensures forall q :: q in r <==> q in reqs && HiringManagerName(q).Some? && HiringManagerName(q).value in visible
    ensures |r| <= |reqs|
  {
    if reqs == [] then []
    else
      var rest := InScope(reqs[1..], visible);
      var q := reqs[0];
      assert forall x :: x in reqs <==> x == q || x in reqs[1..];
      if HiringManagerName(q).Some? && HiringManagerName(q).value in visible then [q] + rest else rest
  }

  /** How many requisitions are credited to `name`: its `value_counts` entry, 0 when absent. */
  function OpenReqCount(reqs: seq<OpenReq>, name: string): nat {
    if reqs == [] then 0 else (if HiredBy(reqs[0], name) then 1 else 0) + OpenReqCount(reqs[1..], name)
  }

  /** A name with no credited requisition has count 0, and only such a name. */
  lemma {:induction false} OpenReqCountZero(reqs: seq<OpenReq>, name: string)
    ensures OpenReqCount(reqs, name) == 0 <==> forall q :: q in reqs ==> !HiredBy(q, name)
  {
    if reqs != [] {
      OpenReqCountZero(reqs[1..], name);
      assert forall x :: x in reqs <==> x == reqs[0] || x in reqs[1..];
    }
  }

  /** Filtering to the visible managers keeps the count of a visible name and zeroes the rest. */
  lemma {:induction false} InScopeCount(reqs: seq<OpenReq>, visible: set<string>, name: string)
    ensures OpenReqCount(InScope(reqs, visible), name) == if name in visible then OpenReqCount(reqs, name) else 0
  {
    if reqs != [] {
      InScopeCount(reqs[1..], visible, name);
      var q := reqs[0];
      var rest := InScope(reqs[1..], visible);
      if HiringManagerName(q).Some? && HiringManagerName(q).value in visible {
        assert InScope(reqs, visible) == [q] + rest;
        assert ([q] + rest)[1..] == rest;
      }
    }
  }

  /** A summary row with its open requisitions and the two derived sums. */
  datatype ReportRow = ReportRow(row: SummaryRow, openReqs: nat, bisSns: nat, bisSnsOpenReqs: nat)

  /**
   * Adds the "Open Reqs", "BIS+SNS" and "BIS+SNS+Open Reqs" columns. When no requisition is in
   * scope every row gets 0; otherwise a manager absent from the counts gets 0 as well.
   */
  function JoinOpenReqs(rows: seq<SummaryRow>, reqs: seq<OpenReq>, visible: set<string>): (r: seq<ReportRow>)
    ensures |r| == |rows|
    ensures forall i :: 0 <= i < |r| ==> r[i].row == rows[i]
    ensures forall i :: 0 <= i < |r| ==> r[i].openReqs == OpenReqCount(InScope(reqs, visible), rows[i].manager)
    ensures forall i :: 0 <= i < |r| ==> r[i].bisSns == rows[i].bis + rows[i].sns
    ensures forall i :: 0 <= i < |r| ==> r[i].bisSnsOpenReqs == r[i].bisSns + r[i].openReqs
  {
    var filtered := InScope(reqs, visible);
    seq(|rows|, i requires 0 <= i < |rows| =>
      var open := if filtered == [] then 0 else OpenReqCount(filtered, rows[i].manager);
      ReportRow(rows[i], open, rows[i].bis + rows[i].sns, rows[i].bis + rows[i].sns + open))
  }

  /** The managers in scope: the root and everyone below it (`visible_managers`). */
  function VisibleManagers(tree: Tree, ghost rank: map<string, nat>, root: string): (v: set<string>)
    requires Ranked(tree, rank)
    ensures root in v
    ensures forall x :: x in v <==> x == root || x in Descendants(tree, rank, root)
  {
    AllManagersAreDescendants(tree, rank, root);
    GetAllManagers(tree, rank, root) + {root}
  }

  /** Every manager with a summary row is in scope. */
  lemma SummaryManagersVisible(info: InfoMap, tree: Tree, rank: map<string, nat>, root: string)
    requires Ranked(tree, rank) && ChildrenKnown(info, tree)
    ensures forall i :: 0 <= i < |BuildSummary(info, tree, rank, root, 0)| ==>
      BuildSummary(info, tree, rank, root, 0)[i].manager in VisibleManagers(tree, rank, root)
  {
    var rows := BuildSummary(info, tree, rank, root, 0);
    SummaryNames(info, tree, rank, root, 0);
    InternalMembers(tree, Descendants(tree, rank, root));
    forall i | 0 <= i < |rows| ensures rows[i].manager in VisibleManagers(tree, rank, root) {
      assert RowNames(rows)[i] == rows[i].manager;
      assert rows[i].manager in multiset(RowNames(rows));
      assert rows[i].manager in multiset([root] + Internal(tree, Descendants(tree, rank, root)));
    }
  }

  /**
   * On the summary of the root, the scope filter loses nothing: each row's open requisitions
   * are all the requisitions credited to its manager.
   */
  lemma JoinCountsAll(info: InfoMap, tree: Tree, rank: map<string, nat>, root: string, reqs: seq<OpenReq>)
    requires Ranked(tree, rank) && ChildrenKnown(info, tree)
    ensures var rows := BuildSummary(info, tree, rank, root, 0);
      var r := JoinOpenReqs(rows, reqs, VisibleManagers(tree, rank, root));
      forall i :: 0 <= i < |r| ==> r[i].openReqs == OpenReqCount(reqs, rows[i].manager)
  {
    SummaryManagersVisible(info, tree, rank, root);
    JoinVisible(BuildSummary(info, tree, rank, root, 0), reqs, VisibleManagers(tree, rank, root));
  }

  /** When every row's manager is visible, the join counts all of that manager's requisitions. */
  lemma JoinVisible(rows: seq<SummaryRow>, reqs: seq<OpenReq>, visible: set<string>)
    requires forall i :: 0 <= i < |rows| ==> rows[i].manager in visible
    ensures forall i :: 0 <= i < |rows| ==> JoinOpenReqs(rows, reqs, visible)[i].openReqs == OpenReqCount(reqs, rows[i].manager)
  {
    forall i | 0 <= i < |rows| ensures OpenReqCount(InScope(reqs, visible), rows[i].manager) == OpenReqCount(reqs, rows[i].manager) {
      InScopeCount(reqs, visible, rows[i].manager);
    }
  }
}

=== FILE: pipeline.dfy ===
/**
 * The page's data flow: classify the roster, build the hierarchy, pick the root, roll the
 * counts up from it, and emit the summary with its open-requisition columns.
 */
module Pipeline {
  import opened Wrappers
  import opened Roster
  import opened Hierarchy
  import opened Rollups
  import opened Summary
  import opened OpenReqs

  /** The root used when the chosen leader has no roster row. */
  const FallbackRoot: string := "Kiren Sekar"

  /** The names offered as VP+ leaders: every row whose level passes the VP+ test. */
  function VpLeaders(records: seq<Record>): (v: set<string>)
    ensures forall x :: x in v <==> exists i :: 0 <= i < |records| && records[i].name == x && IsVpLeader(records[i].level)
  {
    set i | 0 <= i < |records| && IsVpLeader(records[i].level) :: records[i].name
  }

  /** The root: the chosen leader when it has an entry, otherwise the fixed fallback name. */
  function ChooseRoot(query: Option<string>, info: InfoMap): (root: string)
    ensures query.Some? && query.value in info ==> root == query.value
    ensures root != FallbackRoot ==> root in info
    ensures root in info ==> root == FallbackRoot || query == Some(root)
  {
    if query.Some? && query.value in info then query.value else FallbackRoot
  }

  /** The classified rows of the roster. */
  function ClassifyAll(rows: seq<RosterRow>): (records: seq<Record>)
    ensures |records| == |rows| && forall i :: 0 <= i < |rows| ==> records[i] == Classify(rows[i])
  {
    seq(|rows|, i requires 0 <= i < |rows| => Classify(rows[i]))
  }

  /**
   * The summary rows for a built hierarchy, rolled up from `root` and walked from it: none
   * when the root has no entry, otherwise the root's row first, at indent 0, followed by one
   * row per manager among its descendants.
   */
  function PageRows(info: InfoMap, tree: Tree, ghost rank: map<string, nat>, root: string): (rows: seq<SummaryRow>)
    requires Ranked(tree, rank) && ChildrenKnown(info, tree) && (root in tree ==> root in info)
    ensures root !in info ==> rows == []
    ensures root in info ==> |rows| >= 1 && rows[0].manager == root && rows[0].indent == 0
    ensures root in info ==> multiset(RowNames(rows)) == multiset([root] + Internal(tree, Descendants(tree, rank, root)))
  {
    var settled := CountRollups(info, tree, rank, root).0;
    assert ChildrenKnown(settled, tree);
    SummaryNames(settled, tree, rank, root, 0);
    BuildSummary(settled, tree, rank, root, 0)
  }

  /**
   * The summary table for a built hierarchy from `root`, joined with the open requisitions:
   * one report row per summary row, the root's first. The page raises `KeyError` when the
   * root has no roster row (the summary is then a frame without columns), so the root must
   * have an entry.
   */
  function Report(info: InfoMap, tree: Tree, ghost rank: map<string, nat>, root: string, reqs: seq<OpenReq>): (report: seq<ReportRow>)
    requires Ranked(tree, rank) && ChildrenKnown(info, tree) && root in info
    ensures |report| == |PageRows(info, tree, rank, root)| >= 1
    ensures report[0].row.manager == root && report[0].row.indent == 0
  {
    JoinOpenReqs(PageRows(info, tree, rank, root), reqs, VisibleManagers(tree, rank, root))
  }

  /**
   * The page's summary table: the roster is classified, the hierarchy built from it, and the
   * report taken from the chosen root, which must have a roster row, as above.
   */
  function HeadcountReport(roster: seq<RosterRow>, query: Option<string>, reqs: seq<OpenReq>, ghost rank: map<string, nat>): (report: seq<ReportRow>)
    requires Ranked(BuildTree(ClassifyAll(roster)).1, rank)
    requires ChooseRoot(query, BuildTree(ClassifyAll(roster)).0) in BuildTree(ClassifyAll(roster)).0
    ensures |report| >= 1 && report[0].row.manager == ChooseRoot(query, BuildTree(ClassifyAll(roster)).0)
  {
    var info, tree := BuildTree(ClassifyAll(roster)).0, BuildTree(ClassifyAll(roster)).1;
    Report(info, tree, rank, ChooseRoot(query, info), reqs)
  }

  /**
   * Every summary row of a manager carries the BIS and SNS counts of that manager's
   * descendants (with multiplicity), and its total is the number of descendants.
   */
  lemma RowTallies(info: InfoMap, tree: Tree, rank: map<string, nat>, root: string)
    requires Ranked(tree, rank) && ChildrenKnown(info, tree) && (root in tree ==> root in info)
    ensures var rows := PageRows(info, tree, rank, root);
      forall i :: 0 <= i < |rows| && rows[i].manager in tree ==>
        && rows[i].bis == CountType(info, Descendants(tree, rank, rows[i].manager), BIS)
        && rows[i].sns == CountType(info, Descendants(tree, rank, rows[i].manager), SNS)
        && rows[i].total == |Descendants(tree, rank, rows[i].manager)|
  {
    CountRollupsSettles(info, tree, rank, root);
    var settled := CountRollups(info, tree, rank, root).0;
    var rows := BuildSummary(settled, tree, rank, root, 0);
    SummaryNames(settled, tree, rank, root, 0);
    InternalMembers(tree, Descendants(tree, rank, root));
    forall i | 0 <= i < |rows| && rows[i].manager in tree
      ensures rows[i].bis == CountType(info, Descendants(tree, rank, rows[i].manager), BIS)
      ensures rows[i].sns == CountType(info, Descendants(tree, rank, rows[i].manager), SNS)
      ensures rows[i].total == |Descendants(tree, rank, rows[i].manager)|
    {
      var x := rows[i].manager;
      assert RowNames(rows)[i] == x;
      assert x in multiset([root] + Internal(tree, Descendants(tree, rank, root)));
      assert x == root || x in Elems(Descendants(tree, rank, root));
      SettledRow(info, tree, rank, {root} + Elems(Descendants(tree, rank, root)), rows[i]);
    }
  }

  /** A row copied from a settled internal entry carries that node's tally. */
  lemma SettledRow(info: InfoMap, tree: Tree, rank: map<string, nat>, s: set<string>, row: SummaryRow)
    requires Ranked(tree, rank) && ChildrenKnown(info, tree)
    requires CopiesEntry(Settled(info, tree, rank, s), row) && row.manager in s && row.manager in tree
    ensures row.bis == CountType(info, Descendants(tree, rank, row.manager), BIS)
    ensures row.sns == CountType(info, Descendants(tree, rank, row.manager), SNS)
    ensures row.total == |Descendants(tree, rank, row.manager)|
  {
    var ds := Descendants(tree, rank, row.manager);
    DescendantsKnown(info, tree, rank, row.manager);
    CountTypeSplit(info, ds);
  }

  /**
   * Every summary row's country counts are the countries of its manager's descendants, one per
   * occurrence, so for a manager they add up to the row's total.
   */
  lemma RowCountries(info: InfoMap, tree: Tree, rank: map<string, nat>, root: string)
    requires Ranked(tree, rank) && ChildrenKnown(info, tree) && (root in tree ==> root in info)
    ensures var rows := PageRows(info, tree, rank, root);
      forall i :: 0 <= i < |rows| ==>
        && rows[i].countries == Locations(info, Descendants(tree, rank, rows[i].manager))
        && (rows[i].manager in tree ==> |rows[i].countries| == rows[i].total)
  {
    var settled := CountRollups(info, tree, rank, root).0;
    var rows := BuildSummary(settled, tree, rank, root, 0);
    assert settled.Keys == info.Keys && forall n :: n in settled ==> settled[n].location == info[n].location by {
      CountRollupsSettles(info, tree, rank, root);
      SettledLocations(info, tree, rank, {root} + Elems(Descendants(tree, rank, root)));
    }
    assert forall i :: 0 <= i < |rows| && rows[i].manager in tree ==> rows[i].total == |Descendants(tree, rank, rows[i].manager)| by {
      RowTallies(info, tree, rank, root);
    }
    assert forall row :: row in rows ==> HasBreakdown(settled, tree, rank, row) by {
      SummaryBreakdowns(settled, tree, rank, root, 0);
    }
    CountriesOfRows(info, settled, tree, rank, rows);
  }

  /** The settled map keeps every name and every location. */
  lemma SettledLocations(info: InfoMap, tree: Tree, rank: map<string, nat>, s: set<string>)
    requires Ranked(tree, rank)
    ensures var settled := Settled(info, tree, rank, s);
      settled.Keys == info.Keys && forall n :: n in settled ==> settled[n].location == info[n].location
  {
  }

  /** Rows carrying breakdowns over a map with the original locations, and descendant totals. */
  lemma CountriesOfRows(info: InfoMap, settled: InfoMap, tree: Tree, rank: map<string, nat>, rows: seq<SummaryRow>)
    requires Ranked(tree, rank) && ChildrenKnown(settled, tree)
    requires settled.Keys == info.Keys && forall n :: n in settled ==> settled[n].location == info[n].location
    requires forall row :: row in rows ==> HasBreakdown(settled, tree, rank, row)
    requires forall i :: 0 <= i < |rows| && rows[i].manager in tree ==> rows[i].total == |Descendants(tree, rank, rows[i].manager)|
    ensures forall i :: 0 <= i < |rows| ==>
      && rows[i].countries == Locations(info, Descendants(tree, rank, rows[i].manager))
      && (rows[i].manager in tree ==> |rows[i].countries| == rows[i].total)
  {
    forall i | 0 <= i < |rows|
      ensures rows[i].countries == Locations(info, Descendants(tree, rank, rows[i].manager))
      ensures rows[i].manager in tree ==> |rows[i].countries| == rows[i].total
    {
      assert rows[i] in rows;
      BreakdownIsLocations(settled, tree, rank, rows[i].manager);
      LocationsFrame(settled, info, Descendants(tree, rank, rows[i].manager));
    }
  }

  /**
   * On entries fresh from the roster (all counters zero), the roll-up leaves every entry's
   * total equal to its BIS count plus its SNS count.
   */
  lemma RolledUpTotals(info: InfoMap, tree: Tree, rank: map<string, nat>, root: string)
    requires Ranked(tree, rank) && ChildrenKnown(info, tree) && (root in tree ==> root in info)
    requires forall n :: n in info ==> NotRolledUp(info[n])
    ensures forall n :: n in CountRollups(info, tree, rank, root).0 ==>
      CountRollups(info, tree, rank, root).0[n].total == CountRollups(info, tree, rank, root).0[n].bis + CountRollups(info, tree, rank, root).0[n].sns
  {
    CountRollupsSettles(info, tree, rank, root);
  }

  /**
   * On a report over fresh entries, each row's open requisitions are all those whose first
   * hiring manager is that row's manager, and its BIS+SNS column is its total.
   */
  lemma ReportColumns(info: InfoMap, tree: Tree, rank: map<string, nat>, root: string, reqs: seq<OpenReq>)
    requires Ranked(tree, rank) && ChildrenKnown(info, tree) && root in info
    requires forall n :: n in info ==> NotRolledUp(info[n])
    ensures var report := Report(info, tree, rank, root, reqs);
      forall i :: 0 <= i < |report| ==>
        && report[i].openReqs == OpenReqCount(reqs, report[i].row.manager)
        && report[i].bisSns == report[i].row.total
  {
    var settled := CountRollups(info, tree, rank, root).0;
    assert settled.Keys == info.Keys;
    assert Report(info, tree, rank, root, reqs)
      == JoinOpenReqs(BuildSummary(settled, tree, rank, root, 0), reqs, VisibleManagers(tree, rank, root));
    RolledUpTotals(info, tree, rank, root);
    ReportColumnsOf(settled, tree, rank, root, reqs);
  }

  /** `ReportColumns` for any rolled-up map whose totals are sums. */
  lemma ReportColumnsOf(info: InfoMap, tree: Tree, rank: map<string, nat>, root: string, reqs: seq<OpenReq>)
    requires Ranked(tree, rank) && ChildrenKnown(info, tree)
    requires forall n :: n in info ==> info[n].total == info[n].bis + info[n].sns
    ensures var report := JoinOpenReqs(BuildSummary(info, tree, rank, root, 0), reqs, VisibleManagers(tree, rank, root));
      forall i :: 0 <= i < |report| ==>
        && report[i].openReqs == OpenReqCount(reqs, report[i].row.manager)
        && report[i].bisSns == report[i].row.total
  {
    var rows := BuildSummary(info, tree, rank, root, 0);
    var visible := VisibleManagers(tree, rank, root);
    SummaryTotals(info, tree, rank, root);
    SummaryManagersVisible(info, tree, rank, root);
    forall i | 0 <= i < |rows| ensures rows[i].manager in visible && rows[i].total == rows[i].bis + rows[i].sns {
      assert rows[i] in rows;
    }
    JoinColumns(rows, reqs, visible);
  }

  /** The summary rows of a map whose totals are sums have totals that are sums. */
  lemma SummaryTotals(info: InfoMap, tree: Tree, rank: map<string, nat>, root: string)
    requires Ranked(tree, rank) && ChildrenKnown(info, tree)
    requires forall n :: n in info ==> info[n].total == info[n].bis + info[n].sns
    ensures forall row :: row in BuildSummary(info, tree, rank, root, 0) ==> row.total == row.bis + row.sns
  {
  }

  /** The join's columns for rows whose managers are all visible and whose totals are sums. */
  lemma JoinColumns(rows: seq<SummaryRow>, reqs: seq<OpenReq>, visible: set<string>)
    requires forall i :: 0 <= i < |rows| ==> rows[i].manager in visible && rows[i].total == rows[i].bis + rows[i].sns
    ensures var report := JoinOpenReqs(rows, reqs, visible);
      forall i :: 0 <= i < |report| ==>
        && report[i].openReqs == OpenReqCount(reqs, report[i].row.manager)
        && report[i].bisSns == report[i].row.total
  {
    JoinVisible(rows, reqs, visible);
  }

  // ----- a worked roster -----

  /** Alice at the top (no manager), Bob started and Carol not yet, both reporting to Alice. */
  const Alice := Record("Alice", "", BIS, "US", Senior, "M80", 900)
  const Bob := Record("Bob", "Alice", BIS, "US", MidLevel, "P50", 200)
  const Carol := Record("Carol", "Alice", SNS, "IN", Junior, "P30", -10)

  function ExampleTree(): Tree {
    map["" := ["Alice"], "Alice" := ["Bob", "Carol"]]
  }

  function ExampleInfo(): InfoMap {
    map["Alice" := NewEmployee(Alice), "Bob" := NewEmployee(Bob), "Carol" := NewEmployee(Carol)]
  }

  function ExampleRank(): map<string, nat> {
    map["" := 1, "Alice" := 0]
  }

  /** The hierarchy of the worked roster. */
  lemma ExampleBuild()
    ensures BuildTree([Alice, Bob, Carol]) == (ExampleInfo(), ExampleTree())
  {
    var rows := [Alice, Bob, Carol];
    assert rows[..2] == [Alice, Bob] && [Alice, Bob][..1] == [Alice] && [Alice][..0] == [];
    BuildTreeLast(rows);
    BuildTreeLast([Alice, Bob]);
    BuildTreeLast([Alice]);
    ExampleRows();
  }

  lemma BuildTreeLast(rows: seq<Record>)
    requires rows != []
    ensures BuildTree(rows) == AddRow(BuildTree(rows[..|rows| - 1]), rows[|rows| - 1])
  {
  }

  /** The three rows, added one at a time. */
  lemma ExampleRows()
    ensures AddRow(AddRow(AddRow((map[], map[]), Alice), Bob), Carol) == (ExampleInfo(), ExampleTree())
  {
    var b0 := AddRow((map[], map[]), Alice);
    assert Alice.manager == "" && Alice.name == "Alice" && [] + ["Alice"] == ["Alice"];
    assert b0.1 == map[][Alice.manager := [] + [Alice.name]];
    assert b0.1 == map["" := ["Alice"]];
    var b1 := AddRow(b0, Bob);
    assert Bob.manager == "Alice" && Bob.name == "Bob" && [] + ["Bob"] == ["Bob"];
    assert Bob.manager !in b0.1;
    assert b1.1 == b0.1["Alice" := ["Bob"]];
    assert b1.1 == map["" := ["Alice"], "Alice" := ["Bob"]];
    var b2 := AddRow(b1, Carol);
    assert ["Bob"] + ["Carol"] == ["Bob", "Carol"];
    assert b2.1 == ExampleTree();
  }

  /** The rank orders the worked hierarchy. */
  lemma ExampleRanked()
    ensures Ranked(ExampleTree(), ExampleRank())
  {
    assert "Bob" !in ExampleTree() && "Carol" !in ExampleTree();
  }

  /** Alice's descendants are Bob and Carol. */
  lemma ExampleDescendants()
    ensures Ranked(ExampleTree(), ExampleRank())
    ensures Descendants(ExampleTree(), ExampleRank(), "Alice") == ["Bob", "Carol"]
  {
    ExampleRanked();
    var tree, rank := ExampleTree(), ExampleRank();
    assert Height(tree, rank, "Alice") == 1;
    assert "Bob" !in tree && "Carol" !in tree;
    assert Descendants(tree, rank, "Bob") == [] && Descendants(tree, rank, "Carol") == [];
    assert ["Bob", "Carol"][1..] == ["Carol"] && ["Carol"][1..] == [];
  }

  /** Alice's roll-up is one BIS and one SNS, so her total is 2. */
  lemma ExampleRollup()
    ensures Ranked(ExampleTree(), ExampleRank())
    ensures CountRollups(ExampleInfo(), ExampleTree(), ExampleRank(), "Alice").1 == Counts(1, 1)
  {
    var info, tree, rank := ExampleInfo(), ExampleTree(), ExampleRank();
    ExampleDescendants();
    CountRollupsTally(info, tree, rank, "Alice");
    ExampleCounts();
  }

  /** Among Alice's reports, Bob is the one BIS and Carol the one SNS. */
  lemma ExampleCounts()
    ensures CountType(ExampleInfo(), ["Bob", "Carol"], BIS) == 1
    ensures CountType(ExampleInfo(), ["Bob", "Carol"], SNS) == 1
  {
    var info := ExampleInfo();
    assert info["Bob"].hcType == BIS && info["Carol"].hcType == SNS;
    assert ["Bob", "Carol"][1..] == ["Carol"] && ["Carol"][1..] == [];
  }

  /** Alice's country breakdown is one US and one IN. */
  lemma ExampleBreakdown()
    ensures Ranked(ExampleTree(), ExampleRank())
    ensures CountryBreakdown(ExampleInfo(), ExampleTree(), ExampleRank(), "Alice") == multiset{"US", "IN"}
  {
    ExampleDescendants();
    var info, tree, rank := ExampleInfo(), ExampleTree(), ExampleRank();
    BreakdownIsLocations(info, tree, rank, "Alice");
    assert ["Bob", "Carol"][1..] == ["Carol"] && ["Carol"][1..] == [];
  }
}

=== FILE: rollups.dfy ===
/**
 * Roll-ups over the subtree of a manager: the BIS and SNS counts `count_rollups` writes into
 * the info map, and the per-country counts of `count_country_breakdown`.
 *
 * `CountRollups` follows the source's recursion step by step, threading the info map through
 * the calls the way the source mutates it. `Settled` describes the map it produces in one
 * piece: every internal node of the subtree carries the tally of its own descendants.
 */
module Rollups {
  import opened Roster
  import opened Hierarchy

  datatype Counts = Counts(bis: nat, sns: nat)

  /** The entry with its three counters set from `c`; the total is always their sum. */
  function WithRollup(e: Employee, c: Counts): (r: Employee)
    ensures r.total == r.bis + r.sns
  {
    e.(bis := c.bis, sns := c.sns, total := c.bis + c.sns)
  }

  /** Two info maps with the same names and the same headcount type for each. */
  ghost predicate SameTypes(a: InfoMap, b: InfoMap) {
    a.Keys == b.Keys && forall n :: n in a ==> a[n].hcType == b[n].hcType
  }

  /** How many names of `ds` (with multiplicity) have an entry of headcount type `t`. */
  function CountType(info: InfoMap, ds: seq<string>, t: HcType): nat {
    if ds == [] then 0
    else (if ds[0] in info && info[ds[0]].hcType == t then 1 else 0) + CountType(info, ds[1..], t)
  }

  lemma {:induction false} CountTypeAppend(info: InfoMap, a: seq<string>, b: seq<string>, t: HcType)
    ensures CountType(info, a + b, t) == CountType(info, a, t) + CountType(info, b, t)
  {
    if a == [] {
      assert a + b == b;
    } else {
      assert (a + b)[1..] == a[1..] + b;
      CountTypeAppend(info, a[1..], b, t);
    }
  }

  /** Every name is either BIS or SNS, so the two counts split the sequence. */
  lemma {:induction false} CountTypeSplit(info: InfoMap, ds: seq<string>)
    requires forall d :: d in ds ==> d in info
    ensures CountType(info, ds, BIS) + CountType(info, ds, SNS) == |ds|
  {
    if ds != [] {
      CountTypeSplit(info, ds[1..]);
    }
  }

  /** The counts read only headcount types. */
  lemma {:induction false} CountTypeFrame(a: InfoMap, b: InfoMap, ds: seq<string>, t: HcType)
    requires SameTypes(a, b)
    ensures CountType(a, ds, t) == CountType(b, ds, t)
  {
    if ds != [] {
      CountTypeFrame(a, b, ds[1..], t);
    }
  }

  /** The roll-up a node is owed: BIS and SNS counts over all its descendants. */
  ghost function Tally(info: InfoMap, tree: Tree, rank: map<string, nat>, m: string): Counts
    requires Ranked(tree, rank)
  {
    var ds := Descendants(tree, rank, m);
    Counts(CountType(info, ds, BIS), CountType(info, ds, SNS))
  }

  lemma TallyFrame(a: InfoMap, b: InfoMap, tree: Tree, rank: map<string, nat>, m: string)
    requires Ranked(tree, rank) && SameTypes(a, b)
    ensures Tally(a, tree, rank, m) == Tally(b, tree, rank, m)
  {
    var ds := Descendants(tree, rank, m);
    CountTypeFrame(a, b, ds, BIS);
    CountTypeFrame(a, b, ds, SNS);
  }

  /**
   * The info map once the internal nodes in `s` carry their roll-ups; every other entry is as
   * in `info`.
   */
  ghost function Settled(info: InfoMap, tree: Tree, rank: map<string, nat>, s: set<string>): InfoMap
    requires Ranked(tree, rank)
  {
    map n | n in info :: if n in s && n in tree then WithRollup(info[n], Tally(info, tree, rank, n)) else info[n]
  }

  /** Settling no internal node changes nothing. */
  lemma SettledNone(info: InfoMap, tree: Tree, rank: map<string, nat>, s: set<string>)
    requires Ranked(tree, rank) && forall n :: n in s ==> n !in tree
    ensures Settled(info, tree, rank, s) == info
  {
    var r := Settled(info, tree, rank, s);
    assert r.Keys == info.Keys;
    forall n | n in info ensures r[n] == info[n] {
    }
  }

  /** Writing a node's own tally into a settled map settles that node too. */
  lemma SettleOne(info: InfoMap, tree: Tree, rank: map<string, nat>, s: set<string>, m: string)
    requires Ranked(tree, rank) && m in info && m in tree
    ensures var mid := Settled(info, tree, rank, s);
      mid[m := WithRollup(mid[m], Tally(info, tree, rank, m))] == Settled(info, tree, rank, {m} + s)
  {
    var mid := Settled(info, tree, rank, s);
    var r := mid[m := WithRollup(mid[m], Tally(info, tree, rank, m))];
    var want := Settled(info, tree, rank, {m} + s);
    assert r.Keys == want.Keys;
    forall n | n in r ensures r[n] == want[n] {
    }
  }

  // ----- the source's recursion -----

  /**
   * `count_rollups(m)`: for an internal node, recurse into every report, add the report's own
   * type, and write the sums into `m`'s entry; a leaf returns zeros and writes nothing.
   */
  function CountRollups(info: InfoMap, tree: Tree, ghost rank: map<string, nat>, m: string): (res: (InfoMap, Counts))
    requires Ranked(tree, rank) && ChildrenKnown(info, tree) && (m in tree ==> m in info)
    ensures SameTypes(info, res.0)
    decreases Height(tree, rank, m), 1, 0
  {
    if m !in tree then (info, Counts(0, 0))
    else
      ReportsBelow(tree, rank, m);
      var res := CountReports(info, tree, rank, tree[m], Height(tree, rank, m), Counts(0, 0));
      (res.0[m := WithRollup(res.0[m], res.1)], res.1)
  }

  /** The loop over the reports `cs`, accumulating into `acc`. */
  function CountReports(info: InfoMap, tree: Tree, ghost rank: map<string, nat>, cs: seq<string>, ghost bound: nat, acc: Counts): (res: (InfoMap, Counts))
    requires Ranked(tree, rank) && ChildrenKnown(info, tree) && Below(tree, rank, cs, bound)
    requires forall c :: c in cs ==> c in info
    ensures SameTypes(info, res.0)
    decreases bound, 0, |cs|
  {
    if cs == [] then (info, acc)
    else
      var sub := CountRollups(info, tree, rank, cs[0]);
      CountReports(sub.0, tree, rank, cs[1..], bound, AddReport(acc, sub.1, sub.0[cs[0]].hcType))
  }

  /** One turn of the loop: the report's own roll-up, plus one for the report itself. */
  function AddReport(acc: Counts, sub: Counts, t: HcType): Counts {
    Counts(acc.bis + sub.bis + (if t == BIS then 1 else 0), acc.sns + sub.sns + (if t == SNS then 1 else 0))
  }

  // ----- what the recursion computes -----

  /** Settling a node twice, or against a map that differs only in counters, is settling it once. */
  lemma SettledCompose(info: InfoMap, tree: Tree, rank: map<string, nat>, s0: set<string>, s1: set<string>)
    requires Ranked(tree, rank) && ChildrenKnown(info, tree)
    ensures ChildrenKnown(Settled(info, tree, rank, s0), tree)
    ensures Settled(Settled(info, tree, rank, s0), tree, rank, s1) == Settled(info, tree, rank, s0 + s1)
  {
    var mid := Settled(info, tree, rank, s0);
    assert SameTypes(info, mid);
    forall n | n in info ensures Tally(mid, tree, rank, n) == Tally(info, tree, rank, n) {
      TallyFrame(info, mid, tree, rank, n);
    }
  }

  /** The counts `CountRollups` returns are the tally of `m`'s descendants. */
  lemma {:induction false} CountRollupsTally(info: InfoMap, tree: Tree, rank: map<string, nat>, m: string)
    requires Ranked(tree, rank) && ChildrenKnown(info, tree) && (m in tree ==> m in info)
    ensures CountRollups(info, tree, rank, m).1 == Tally(info, tree, rank, m)
    decreases Height(tree, rank, m), 1, 0
  {
    if m in tree {
      ReportsBelow(tree, rank, m);
      CountReportsTally(info, tree, rank, tree[m], Height(tree, rank, m), Counts(0, 0));
    }
  }

  lemma {:induction false} CountReportsTally(info: InfoMap, tree: Tree, rank: map<string, nat>, cs: seq<string>, bound: nat, acc: Counts)
    requires Ranked(tree, rank) && ChildrenKnown(info, tree) && Below(tree, rank, cs, bound)
    requires forall c :: c in cs ==> c in info
    ensures var ds := DescendantsOf(tree, rank, cs, bound);
      CountReports(info, tree, rank, cs, bound, acc).1 ==
        Counts(acc.bis + CountType(info, ds, BIS), acc.sns + CountType(info, ds, SNS))
    decreases bound, 0, |cs|
  {
    if cs != [] {
      var c := cs[0];
      var sub := CountRollups(info, tree, rank, c);
      var acc' := AddReport(acc, sub.1, sub.0[c].hcType);
      CountRollupsTally(info, tree, rank, c);
      CountReportsTally(sub.0, tree, rank, cs[1..], bound, acc');
      TallyStep(info, sub.0, tree, rank, cs, bound, acc, sub.1);
    }
  }

  /** The arithmetic of one loop turn: the accumulated counts grow by the report's whole subtree. */
  lemma TallyStep(info: InfoMap, info': InfoMap, tree: Tree, rank: map<string, nat>, cs: seq<string>, bound: nat, acc: Counts, sub: Counts)
    requires Ranked(tree, rank) && Below(tree, rank, cs, bound) && cs != [] && cs[0] in info
    requires SameTypes(info, info')
    requires sub == Tally(info, tree, rank, cs[0])
    ensures var acc' := AddReport(acc, sub, info'[cs[0]].hcType);
      var rest := DescendantsOf(tree, rank, cs[1..], bound);
      var ds := DescendantsOf(tree, rank, cs, bound);
      acc'.bis + CountType(info', rest, BIS) == acc.bis + CountType(info, ds, BIS) &&
      acc'.sns + CountType(info', rest, SNS) == acc.sns + CountType(info, ds, SNS)
  {
    var c := cs[0];
    var under := Descendants(tree, rank, c);
    var rest := DescendantsOf(tree, rank, cs[1..], bound);
    assert DescendantsOf(tree, rank, cs, bound) == ([c] + under) + rest;
    assert [c][1..] == [];
    CountTypeFrame(info, info', rest, BIS);
    CountTypeFrame(info, info', rest, SNS);
    CountTypeAppend(info, [c] + under, rest, BIS);
    CountTypeAppend(info, [c], under, BIS);
    CountTypeAppend(info, [c] + under, rest, SNS);
    CountTypeAppend(info, [c], under, SNS);
  }

  /** The map `CountRollups` returns settles `m` and every internal descendant of `m`. */
  lemma {:induction false} CountRollupsMap(info: InfoMap, tree: Tree, rank: map<string, nat>, m: string)
    requires Ranked(tree, rank) && ChildrenKnown(info, tree) && (m in tree ==> m in info)
    ensures CountRollups(info, tree, rank, m).0 == Settled(info, tree, rank, {m} + Elems(Descendants(tree, rank, m)))
    decreases Height(tree, rank, m), 1, 0
  {
    var s := {m} + Elems(Descendants(tree, rank, m));
    if m !in tree {
      assert Elems([]) == {};
      SettledNone(info, tree, rank, s);
    } else {
      ReportsBelow(tree, rank, m);
      var bound := Height(tree, rank, m);
      var ds := DescendantsOf(tree, rank, tree[m], bound);
      CountReportsMap(info, tree, rank, tree[m], bound, Counts(0, 0));
      CountReportsTally(info, tree, rank, tree[m], bound, Counts(0, 0));
      SettleOne(info, tree, rank, Elems(ds), m);
    }
  }

  lemma {:induction false} CountReportsMap(info: InfoMap, tree: Tree, rank: map<string, nat>, cs: seq<string>, bound: nat, acc: Counts)
    requires Ranked(tree, rank) && ChildrenKnown(info, tree) && Below(tree, rank, cs, bound)
    requires forall c :: c in cs ==> c in info
    ensures CountReports(info, tree, rank, cs, bound, acc).0 == Settled(info, tree, rank, Elems(DescendantsOf(tree, rank, cs, bound)))
    decreases bound, 0, |cs|
  {
    if cs == [] {
      assert Elems([]) == {};
      SettledNone(info, tree, rank, {});
    } else {
      var c := cs[0];
      var under := Descendants(tree, rank, c);
      var rest := DescendantsOf(tree, rank, cs[1..], bound);
      assert DescendantsOf(tree, rank, cs, bound) == ([c] + under) + rest;
      CountRollupsMap(info, tree, rank, c);
      var sub := CountRollups(info, tree, rank, c);
      var s0 := {c} + Elems(under);
      CountReportsMap(sub.0, tree, rank, cs[1..], bound, AddReport(acc, sub.1, sub.0[c].hcType));
      SettledCompose(info, tree, rank, s0, Elems(rest));
      ElemsAppend([c] + under, rest);
      ElemsAppend([c], under);
      assert Elems([c]) == {c};
    }
  }

  /**
   * `count_rollups` computes, for an internal node, the number of BIS and of SNS descendants
   * (with multiplicity) and leaves the info map with `m` and every internal descendant of `m`
   * carrying its own counts; a leaf gets zeros and leaves the map alone.
   */
  lemma CountRollupsSettles(info: InfoMap, tree: Tree, rank: map<string, nat>, m: string)
    requires Ranked(tree, rank) && ChildrenKnown(info, tree) && (m in tree ==> m in info)
    ensures CountRollups(info, tree, rank, m) ==
      (Settled(info, tree, rank, {m} + Elems(Descendants(tree, rank, m))), Tally(info, tree, rank, m))
  {
    CountRollupsTally(info, tree, rank, m);
    CountRollupsMap(info, tree, rank, m);
  }

  /** Rolling up a second time from the same root changes neither the map nor the counts. */
  lemma CountRollupsIdempotent(info: InfoMap, tree: Tree, rank: map<string, nat>, m: string)
    requires Ranked(tree, rank) && ChildrenKnown(info, tree) && (m in tree ==> m in info)
    ensures CountRollups(CountRollups(info, tree, rank, m).0, tree, rank, m) == CountRollups(info, tree, rank, m)
  {
    var s := {m} + Elems(Descendants(tree, rank, m));
    CountRollupsSettles(info, tree, rank, m);
    var once := CountRollups(info, tree, rank, m).0;
    SettledCompose(info, tree, rank, s, s);
    assert s + s == s;
    CountRollupsSettles(once, tree, rank, m);
    TallyFrame(once, info, tree, rank, m);
  }
}

=== FILE: roster.dfy ===
/**
 * Classification of one roster row, as the roster query derives it: the level band, the
 * country code, the headcount type, and the tenure display value.
 */
module Roster {
  import opened Wrappers
  import opened Text

  /** Headcount type: BIS (already started) or SNS (signed, not yet started). */
  datatype HcType = BIS | SNS

  datatype LevelBand = Junior | MidLevel | Senior | UnknownBand

  /** A raw roster row; `tenureDays` is the whole number of days from the hire date to today. */
  datatype RosterRow = RosterRow(
    employeeName: string,
    managerFinal: string,
    location: string,
    managementLevel: string,
    tenureDays: int)

  /** A roster row with the columns the query derives from it. */
  datatype Record = Record(
    name: string,
    manager: string,
    hcType: HcType,
    country: string,
    levelsSummary: LevelBand,
    level: string,
    tenureDays: int)

  /** Tenure as displayed: whole years and rounded months. */
  datatype Tenure = Tenure(years: int, months: nat)

  // ----- level band -----

  /** The band of a numeric level: 20-40, 50-60 and 70 upwards; the gaps are Unknown. */
  function BandOfNumber(n: nat): LevelBand {
    if 20 <= n <= 40 then Junior
    else if 50 <= n <= 60 then MidLevel
    else if n >= 70 then Senior
    else UnknownBand
  }

  /** The level code starts with the individual-contributor or manager letter. */
  predicate HasLevelPrefix(level: string) {
    |level| > 0 && (level[0] == 'P' || level[0] == 'M')
  }

  /**
   * The `levels_summary` column: a `P`/`M` prefix followed by a decimal numeral is banded by
   * its value; any other code is Unknown.
   */
  function LevelsSummary(level: string): LevelBand {
    if HasLevelPrefix(level) && IsNumeral(level[1..]) then BandOfNumber(DecimalValue(level[1..]))
    else UnknownBand
  }

  /** Each band in terms of the level code itself, both directions. */
  lemma LevelsSummaryCases(level: string)
    ensures LevelsSummary(level) == Junior <==>
      HasLevelPrefix(level) && IsNumeral(level[1..]) && 20 <= DecimalValue(level[1..]) <= 40
    ensures LevelsSummary(level) == MidLevel <==>
      HasLevelPrefix(level) && IsNumeral(level[1..]) && 50 <= DecimalValue(level[1..]) <= 60
    ensures LevelsSummary(level) == Senior <==>
      HasLevelPrefix(level) && IsNumeral(level[1..]) && DecimalValue(level[1..]) >= 70
    ensures !HasLevelPrefix(level) ==> LevelsSummary(level) == UnknownBand
  {
  }

  /**
   * The level number is read with `CAST(... AS INT)`, so zero padding after the letter does
   * not move a code between bands: `P050` is banded as `P50`.
   */
  lemma PaddedLevelBand(prefix: char, digits: string)
    requires IsNumeral(digits)
    ensures LevelsSummary([prefix] + "0" + digits) == LevelsSummary([prefix] + digits)
  {
    assert ([prefix] + "0" + digits)[1..] == "0" + digits;
    assert ([prefix] + digits)[1..] == digits;
    LeadingZeroValue(digits);
  }

  /**
   * A level code written as a letter and a number is banded by that number when the letter
   * is `P` or `M`, and is Unknown otherwise; in particular 41-49 and 61-69 fall in no band.
   */
  lemma {:induction false} LevelCodeBand(prefix: char, n: nat)
    ensures LevelsSummary([prefix] + DecimalString(n)) ==
      if prefix == 'P' || prefix == 'M' then BandOfNumber(n) else UnknownBand
    ensures (41 <= n <= 49 || 61 <= n <= 69) ==> LevelsSummary([prefix] + DecimalString(n)) == UnknownBand
  {
    var code := [prefix] + DecimalString(n);
    assert code[1..] == DecimalString(n);
    DecimalRoundTrip(n);
  }

  // ----- VP+ leaders -----

  /** A VP+ leader's level holds a first run of digits worth at least 90 (no digits counts as 0). */
  predicate IsVpLeader(level: string) {
    FirstDigitRun(level).GetOr(0) >= 90
  }

  /**
   * For a well-formed level code the VP+ test reads the numeric suffix, so every VP+ leader
   * with a `P`/`M` code is in the Senior band.
   */
  lemma VpLeaderLevelCode(level: string)
    requires |level| > 0 && !IsDigit(level[0]) && IsNumeral(level[1..])
    ensures IsVpLeader(level) <==> DecimalValue(level[1..]) >= 90
    ensures IsVpLeader(level) && HasLevelPrefix(level) ==> LevelsSummary(level) == Senior
  {
    var r := FirstDigitRun(level);
    var i :| FirstDigitAt(level, i) && r.value == DecimalValue(LeadingDigits(level[i..]));
    assert i == 1;
    LeadingDigitsOfNumeral(level[1..]);
  }

  /** The leading digits of a numeral are the whole numeral. */
  lemma {:induction false} LeadingDigitsOfNumeral(s: string)
    requires AllDigits(s)
    ensures LeadingDigits(s) == s
  {
    if |s| > 0 {
      LeadingDigitsOfNumeral(s[1..]);
    }
  }

  // ----- country -----

  /** The location is one of the strings the country rule recognises. */
  predicate IsKnownLocation(location: string) {
    || location == "Remote - Poland"
    || location == "Remote - MN"
    || location == "Remote - CA"
    || location == "Remote - Seattle"
    || location == "Remote - VA Metro"
    || location == "London - UK2"
    || location == "Remote - MA"
    || location == "San Francisco - SF9"
    || location == "Bengaluru - BLR1"
    || location == "Remote - NYC"
    || location == "Remote - SF Bay Area"
    || location == "Remote - Houston"
    || location == "Remote - FL"
    || location == "Remote - Dallas"
    || location == "Remote - Chicago"
    || location == "Remote - WI"
    || location == "Remote - NC"
    || location == "Remote - HI"
    || location == "Remote - Netherlands"
    || location == "Remote - NY"
    || location == "Remote - WA"
    || location == "Atlanta - ATL2"
    || location == "Remote - Montreal"
    || location == "Remote - Austin"
    || location == "Remote - GA"
    || location == "Remote - Mexico"
    || location == "Remote - Toronto"
    || location == "Remote - Vancouver"
    || location == "Remote - UK"
    || location == "Remote - Denver"
    || location == "Remote - PA"
    || location == "Remote - NJ Metro"
    || location == "Remote - MO"
    || location == "Remote - NJ"
    || location == "Remote - OR"
    || location == "Remote - NV"
    || location == "Remote - CO"
    || location == "Remote - Canada"
    || location == "Remote - VA"
    || location == "Remote - MI"
    || location == "Remote - AZ"
    || location == "Remote - CT"
    || location == "Remote - UT"
    || location == "Remote - Taiwan"
    || location == "Remote - OH"
    || location == "Remote - ND"
    || location == "TW1"
    || location == "Remote - KS"
    || location == "Remote - TN"
    || location == "Remote - MD"
    || location == "Remote - NE"
    || location == "Remote - DC"
    || location == "Remote - MD Metro"
    || location == "Remote - Calgary"
    || location == "Remote - IL"
    || location == "Remote - TX"
    || location == "Remote - IA"
    || location == "CDMX3"
    || location == "Remote - MT"
    || location == "Remote - OK"
    || location == "Remote - AK"
    || location == "Remote - AL"
    || location == "Remote - France"
    || location == "Remote - NH"
    || location == "Remote - Wyoming"
    || location == "Remote - Edmonton"
    || location == "Phoenix - PHX1"
  }

  /** Every country code the rule can produce. */
  const CountryCodes: set<string> := {"CA", "FR", "GB", "IN", "MX", "NL", "PL", "TW", "UK", "US", "Unknown"}

  /**
   * The `country` column: the first table entry whose location equals `location` exactly
   * (the patterns hold no wildcard), and "Unknown" when none does.
   */
  function CountryOf(location: string): (code: string)
    ensures code in CountryCodes
    ensures code == "Unknown" <==> !IsKnownLocation(location)
  {
    if location == "Remote - Poland" then "PL"
    else if location == "Remote - MN" then "US"
    else if location == "Remote - CA" then "US"
    else if location == "Remote - Seattle" then "US"
    else if location == "Remote - VA Metro" then "US"
    else if location == "London - UK2" then "UK"
    else if location == "Remote - MA" then "US"
    else if location == "San Francisco - SF9" then "US"
    else if location == "Bengaluru - BLR1" then "IN"
    else if location == "Remote - NYC" then "US"
    else if location == "Remote - SF Bay Area" then "US"
    else if location == "Remote - Houston" then "US"
    else if location == "Remote - FL" then "US"
    else if location == "Remote - Dallas" then "US"
    else if location == "Remote - Chicago" then "US"
    else if location == "Remote - WI" then "US"
    else if location == "Remote - NC" then "US"
    else if location == "Remote - HI" then "US"
    else if location == "Remote - Netherlands" then "NL"
    else if location == "Remote - NY" then "US"
    else if location == "Remote - WA" then "US"
    else if location == "Atlanta - ATL2" then "US"
    else if location == "Remote - Montreal" then "CA"
    else if location == "Remote - Austin" then "US"
    else if location == "Remote - GA" then "US"
    else if location == "Remote - Mexico" then "MX"
    else if location == "Remote - Toronto" then "CA"
    else if location == "Remote - Vancouver" then "CA"
    else if location == "Remote - UK" then "GB"
    else if location == "Remote - Denver" then "US"
    else if location == "Remote - PA" then "US"
    else if location == "Remote - NJ Metro" then "US"
    else if location == "Remote - MO" then "US"
    else if location == "Remote - NJ" then "US"
    else if location == "Remote - OR" then "US"
    else if location == "Remote - NV" then "US"
    else if location == "Remote - CO" then "US"
    else if location == "Remote - Canada" then "CA"
    else if location == "Remote - VA" then "US"
    else if location == "Remote - MI" then "US"
    else if location == "Remote - AZ" then "US"
    else if location == "Remote - CT" then "US"
    else if location == "Remote - UT" then "US"
    else if location == "Remote - Taiwan" then "TW"
    else if location == "Remote - OH" then "US"
    else if location == "Remote - ND" then "US"
    else if location == "TW1" then "TW"
    else if location == "Remote - KS" then "US"
    else if location == "Remote - TN" then "US"
    else if location == "Remote - MD" then "US"
    else if location == "Remote - NE" then "US"
    else if location == "Remote - DC" then "US"
    else if location == "Remote - MD Metro" then "US"
    else if location == "Remote - Calgary" then "CA"
    else if location == "Remote - IL" then "US"
    else if location == "Remote - TX" then "US"
    else if location == "Remote - IA" then "US"
    else if location == "CDMX3" then "MX"
    else if location == "Remote - MT" then "US"
    else if location == "Remote - OK" then "US"
    else if location == "Remote - AK" then "US"
    else if location == "Remote - AL" then "US"
    else if location == "Remote - France" then "FR"
    else if location == "Remote - NH" then "US"
    else if location == "Remote - Wyoming" then "US"
    else if location == "Remote - Edmonton" then "CA"
    else if location == "Phoenix - PHX1" then "US"
    else "Unknown"
  }

  /** A Bengaluru office maps to India. */
  lemma CountryExamples()
    ensures CountryOf("Bengaluru - BLR1") == "IN"
  {
  }

  /** The table itself uses two codes for Britain: UK for the London offices, GB for remote staff. */
  lemma CountryBritishCodes()
    ensures CountryOf("London - UK2") == "UK"
    ensures CountryOf("Remote - UK") == "GB"
  {
  }

  /** The match is exact: a location that merely starts like a known one is not matched. */
  lemma CountryExactMatch()
    ensures CountryOf("Remote - Poland") == "PL"
    ensures CountryOf("Remote - Poland ") == "Unknown"
  {
  }

  /** The match is case-sensitive. */
  lemma CountryCaseSensitive()
    ensures CountryOf("remote - poland") == "Unknown"
  {
  }

  // ----- headcount type -----

  /** A hire whose tenure is not positive has not started yet. */
  function HcTypeOf(tenureDays: int): HcType {
    if tenureDays <= 0 then SNS else BIS
  }

  // ----- tenure display -----

  /**
   * Python's `round(r / 30)` for a non-negative integer `r`: the nearest integer, with halves
   * going to the even neighbour.
   */
  function RoundThirtieths(r: nat): (m: nat)
    ensures 30 * m - 15 <= r <= 30 * m + 15
    ensures (r == 30 * m - 15 || r == 30 * m + 15) ==> m % 2 == 0
  {
    var q := r / 30;
    var rem := r % 30;
    if rem > 15 || (rem == 15 && q % 2 == 1) then q + 1 else q
  }

  /**
   * `format_tenure`: floor years and rounded months of a day count, a month count of 12
   * rolling over into the next year.
   */
  function FormatTenure(days: int): (t: Tenure)
    ensures t.months < 12
    ensures days % 365 >= 345 ==> t.years == days / 365 + 1 && t.months == 0
    ensures days % 365 < 345 ==>
      t.years == days / 365 && 30 * t.months - 15 <= days % 365 <= 30 * t.months + 15
    ensures days % 365 < 345 && (days % 365) % 30 == 15 ==> t.months % 2 == 0
  {
    var y := days / 365;
    var m := RoundThirtieths(days % 365);
    if m == 12 then Tenure(y + 1, 0) else Tenure(y, m)
  }

  function IntString(i: int): string {
    if i < 0 then "-" + DecimalString(-i) else DecimalString(i)
  }

  /** The display text of a tenure, as in "1 y, 1 mo". */
  function TenureText(t: Tenure): string {
    IntString(t.years) + " y, " + DecimalString(t.months) + " mo"
  }

  /** Worked values: 400 days, 364 days (rounds up to a full year), and a hire 10 days out. */
  lemma TenureExamples()
    ensures FormatTenure(400) == Tenure(1, 1)
    ensures FormatTenure(364) == Tenure(1, 0)
    ensures FormatTenure(-10) == Tenure(0, 0) && FormatTenure(-30) == Tenure(-1, 11)
    ensures FormatTenure(15) == Tenure(0, 0) && FormatTenure(45) == Tenure(0, 2)
    ensures TenureText(FormatTenure(400)) == "1 y, 1 mo"
  {
  }

  // ----- the derived row -----

  /** The query's output row: every derived column computed from the raw row. */
  function Classify(row: RosterRow): (r: Record)
    ensures r.name == row.employeeName && r.manager == row.managerFinal
    ensures r.hcType == SNS <==> row.tenureDays <= 0
    ensures r.country == "Unknown" <==> !IsKnownLocation(row.location)
    ensures r.levelsSummary == LevelsSummary(row.managementLevel) && r.level == row.managementLevel
    ensures r.tenureDays == row.tenureDays
  {
    Record(row.employeeName, row.managerFinal, HcTypeOf(row.tenureDays), CountryOf(row.location),
           LevelsSummary(row.managementLevel), row.managementLevel, row.tenureDays)
  }
}

=== FILE: sorting.dfy ===
/**
 * Stable sorting in descending order of an integer key, as Python's
 * `sorted(xs, key=k, reverse=True)` orders a list: larger keys first, and elements with
 * equal keys in their original relative order.
 */
module Sorting {

  /** Keys never increase from one element to the next. */
  ghost predicate SortedDesc<T>(s: seq<T>, key: T -> int) {
    |s| <= 1 || (key(s[0]) >= key(s[1]) && SortedDesc(s[1..], key))
  }

  /** In a descending sequence every key is at most the first one. */
  lemma {:induction false} SortedHeadMax<T>(s: seq<T>, key: T -> int)
    requires SortedDesc(s, key) && s != []
    ensures forall y :: y in s ==> key(y) <= key(s[0])
  {
    if |s| > 1 {
      SortedHeadMax(s[1..], key);
      forall y | y in s ensures key(y) <= key(s[0]) {
        if y != s[0] {
          assert y in s[1..];
        }
      }
    }
  }

  /** A descending sequence orders every pair of positions, not only neighbours. */
  lemma {:induction false} SortedPairs<T>(s: seq<T>, key: T -> int)
    requires SortedDesc(s, key)
    ensures forall i, j :: 0 <= i < j < |s| ==> key(s[i]) >= key(s[j])
  {
    if s != [] {
      SortedHeadMax(s, key);
      SortedPairs(s[1..], key);
      forall i, j | 0 <= i < j < |s| ensures key(s[i]) >= key(s[j]) {
        if i > 0 {
          assert s[i] == s[1..][i - 1] && s[j] == s[1..][j - 1];
        } else {
          assert s[j] in s;
        }
      }
    }
  }

  /** Putting an element no smaller than any other in front keeps a sequence descending. */
  lemma SortedCons<T>(x: T, s: seq<T>, key: T -> int)
    requires SortedDesc(s, key) && forall y :: y in s ==> key(y) <= key(x)
    ensures SortedDesc([x] + s, key)
  {
    if s != [] {
      assert s[0] in s;
    }
    assert ([x] + s)[1..] == s;
  }

  /** The subsequence of the elements of `s` whose key is `k`, in their order in `s`. */
  function WithKey<T>(s: seq<T>, key: T -> int, k: int): (r: seq<T>)
    ensures forall x :: x in r ==> x in s && key(x) == k
  {
    if s == [] then []
    else
      assert forall x :: x in s[1..] ==> x in s;
      (if key(s[0]) == k then [s[0]] else []) + WithKey(s[1..], key, k)
  }

  /** The elements of `s` that satisfy `p`, in their order in `s`. */
  function Select<T(!new)>(s: seq<T>, p: T -> bool): (r: seq<T>)
    ensures forall x :: x in r <==> x in s && p(x)
  {
    if s == [] then []
    else
      assert forall x :: x in s <==> x == s[0] || x in s[1..];
      (if p(s[0]) then [s[0]] else []) + Select(s[1..], p)
  }

  lemma {:induction false} SelectAppend<T(!new)>(a: seq<T>, b: seq<T>, p: T -> bool)
    ensures Select(a + b, p) == Select(a, p) + Select(b, p)
  {
    if a == [] {
      assert a + b == b;
    } else {
      assert (a + b)[0] == a[0] && (a + b)[1..] == a[1..] + b;
      SelectAppend(a[1..], b, p);
    }
  }

  /** Selecting commutes with keeping the elements of one key. */
  lemma {:induction false} SelectWithKey<T(!new)>(s: seq<T>, p: T -> bool, key: T -> int, k: int)
    ensures WithKey(Select(s, p), key, k) == Select(WithKey(s, key, k), p)
  {
    if s != [] {
      SelectWithKey(s[1..], p, key, k);
      SelectWithKeyStep(s, p, key, k);
    }
  }

  /** One step of `SelectWithKey`: both sides keep the head exactly when it passes both tests. */
  lemma SelectWithKeyStep<T(!new)>(s: seq<T>, p: T -> bool, key: T -> int, k: int)
    requires s != []
    requires WithKey(Select(s[1..], p), key, k) == Select(WithKey(s[1..], key, k), p)
    ensures WithKey(Select(s, p), key, k) == Select(WithKey(s, key, k), p)
  {
    var both := if key(s[0]) == k && p(s[0]) then [s[0]] else [];
    assert WithKey(Select(s, p), key, k) == both + WithKey(Select(s[1..], p), key, k) by {
      if p(s[0]) {
        assert Select(s, p) == [s[0]] + Select(s[1..], p);
        WithKeyCons(s[0], Select(s[1..], p), key, k);
      } else {
        assert Select(s, p) == Select(s[1..], p);
      }
    }
    assert Select(WithKey(s, key, k), p) == both + Select(WithKey(s[1..], key, k), p) by {
      if key(s[0]) == k {
        assert WithKey(s, key, k) == [s[0]] + WithKey(s[1..], key, k);
        SelectCons(s[0], WithKey(s[1..], key, k), p);
      } else {
        assert WithKey(s, key, k) == WithKey(s[1..], key, k);
      }
    }
  }

  /** `Select` of a sequence with a known first element. */
  lemma SelectCons<T(!new)>(a: T, t: seq<T>, p: T -> bool)
    ensures Select([a] + t, p) == (if p(a) then [a] else []) + Select(t, p)
  {
    assert ([a] + t)[0] == a;
    assert ([a] + t)[1..] == t;
  }

  /**
   * Inserts `x` before the first element whose key is not larger; into a descending sequence
   * this is a sorted insertion.
   */
  function Insert<T>(x: T, s: seq<T>, key: T -> int): (r: seq<T>)
    ensures multiset(r) == multiset(s) + multiset{x}
    ensures r != [] && (r[0] == x || (s != [] && r[0] == s[0]))
    ensures SortedDesc(s, key) ==> SortedDesc(r, key)
  {
    if s == [] || key(s[0]) <= key(x) then
      assert ([x] + s)[1..] == s;
      [x] + s
    else
      var t := Insert(x, s[1..], key);
      assert s == [s[0]] + s[1..];
      assert ([s[0]] + t)[1..] == t;
      [s[0]] + t
  }

  /** Insertion sort, descending by key. */
  function SortDesc<T>(s: seq<T>, key: T -> int): (r: seq<T>)
    ensures SortedDesc(r, key)
    ensures multiset(r) == multiset(s)
    ensures |r| == |s|
  {
    if s == [] then []
    else
      var r := Insert(s[0], SortDesc(s[1..], key), key);
      assert s == [s[0]] + s[1..];
      assert |r| == |multiset(r)|;
      r
  }

  /** `WithKey` of a sequence with a known first element. */
  lemma WithKeyCons<T>(a: T, t: seq<T>, key: T -> int, k: int)
    ensures WithKey([a] + t, key, k) == (if key(a) == k then [a] else []) + WithKey(t, key, k)
  {
    assert ([a] + t)[0] == a;
    assert ([a] + t)[1..] == t;
  }

  /** Inserting `x` adds it at the front of its key class and leaves every class otherwise alone. */
  lemma {:induction false} InsertWithKey<T>(x: T, s: seq<T>, key: T -> int, k: int)
    ensures WithKey(Insert(x, s, key), key, k) == (if key(x) == k then [x] else []) + WithKey(s, key, k)
  {
    if s == [] || key(s[0]) <= key(x) {
      WithKeyCons(x, s, key, k);
    } else {
      InsertWithKey(x, s[1..], key, k);
      InsertPastHead(x, s, key, k);
    }
  }

  lemma InsertUnfold<T>(x: T, s: seq<T>, key: T -> int)
    requires s != [] && key(s[0]) > key(x)
    ensures Insert(x, s, key) == [s[0]] + Insert(x, s[1..], key)
  {
  }

  /** One step of `InsertWithKey`: inserting past a larger head. */
  lemma InsertPastHead<T>(x: T, s: seq<T>, key: T -> int, k: int)
    requires s != [] && key(s[0]) > key(x)
    requires WithKey(Insert(x, s[1..], key), key, k) == (if key(x) == k then [x] else []) + WithKey(s[1..], key, k)
    ensures WithKey(Insert(x, s, key), key, k) == (if key(x) == k then [x] else []) + WithKey(s, key, k)
  {
    var t := Insert(x, s[1..], key);
    var h := if key(s[0]) == k then [s[0]] else [];
    var e := if key(x) == k then [x] else [];
    var rest := WithKey(s[1..], key, k);
    assert WithKey(Insert(x, s, key), key, k) == h + WithKey(t, key, k) by {
      InsertUnfold(x, s, key);
      WithKeyCons(s[0], t, key, k);
    }
    assert WithKey(s, key, k) == h + rest;
    SwapFront(h, e, rest);
  }

  /** Two fronts, one of them empty, can be put in either order. */
  lemma SwapFront<T>(h: seq<T>, e: seq<T>, rest: seq<T>)
    requires h == [] || e == []
    ensures h + (e + rest) == e + (h + rest)
  {
  }

  /**
   * The sort is stable: for every key, the elements with that key appear in the result in
   * the same order as in the input.
   */
  lemma {:induction false} SortStable<T>(s: seq<T>, key: T -> int, k: int)
    ensures WithKey(SortDesc(s, key), key, k) == WithKey(s, key, k)
  {
    if s != [] {
      SortStable(s[1..], key, k);
      InsertWithKey(s[0], SortDesc(s[1..], key), key, k);
    }
  }

  /** Every element of the sorted sequence comes from the input, and conversely. */
  lemma SortMembers<T>(s: seq<T>, key: T -> int)
    ensures forall x :: x in SortDesc(s, key) <==> x in s
  {
    var r := SortDesc(s, key);
    forall x ensures x in r <==> x in s {
      assert x in r <==> x in multiset(r);
      assert x in s <==> x in multiset(s);
    }
  }
}

=== FILE: summary.dfy ===
/**
 * The summary table: `count_country_breakdown`, the pre-order rows of `build_summary`, and the
 * open-requisition columns joined onto them.
 *
 * A `Counter` of country codes is a multiset; the dictionary the source spreads into a row is
 * that multiset's positive counts.
 */
module Summary {
  import opened Wrappers
  import opened Roster
  import opened Sorting
  import opened Hierarchy

  // ----- country breakdown -----

  /**
   * `count_country_breakdown`: for each report, its own country plus, when it is internal, its
   * subtree's breakdown; empty for a leaf.
   */
  function CountryBreakdown(info: InfoMap, tree: Tree, ghost rank: map<string, nat>, m: string): multiset<string>
    requires Ranked(tree, rank) && ChildrenKnown(info, tree)
    decreases Height(tree, rank, m), 1, 0
  {
    if m !in tree then multiset{}
    else
      ReportsBelow(tree, rank, m);
      BreakdownOf(info, tree, rank, tree[m], Height(tree, rank, m))
  }

  function BreakdownOf(info: InfoMap, tree: Tree, ghost rank: map<string, nat>, cs: seq<string>, ghost bound: nat): multiset<string>
    requires Ranked(tree, rank) && ChildrenKnown(info, tree) && Below(tree, rank, cs, bound)
    requires forall c :: c in cs ==> c in info
    decreases bound, 0, |cs|
  {
    if cs == [] then multiset{}
    else
      var emp := cs[0];
      var sub := if emp in tree then CountryBreakdown(info, tree, rank, emp) else multiset{};
      multiset{info[emp].location} + sub + BreakdownOf(info, tree, rank, cs[1..], bound)
  }

  /** The countries of the names of `ds` that have an entry, with multiplicity. */
  function Locations(info: InfoMap, ds: seq<string>): multiset<string> {
    if ds == [] then multiset{}
    else (if ds[0] in info then multiset{info[ds[0]].location} else multiset{}) + Locations(info, ds[1..])
  }

  lemma {:induction false} LocationsAppend(info: InfoMap, a: seq<string>, b: seq<string>)
    ensures Locations(info, a + b) == Locations(info, a) + Locations(info, b)
  {
    if a == [] {
      assert a + b == b;
    } else {
      assert (a + b)[1..] == a[1..] + b;
      LocationsAppend(info, a[1..], b);
    }
  }

  /** The countries read only locations. */
  lemma {:induction false} LocationsFrame(a: InfoMap, b: InfoMap, ds: seq<string>)
    requires a.Keys == b.Keys && forall n :: n in a ==> a[n].location == b[n].location
    ensures Locations(a, ds) == Locations(b, ds)
  {
    if ds != [] {
      LocationsFrame(a, b, ds[1..]);
    }
  }

  /** When every name has an entry, each contributes exactly one country. */
  lemma {:induction false} LocationsSize(info: InfoMap, ds: seq<string>)
    requires forall d :: d in ds ==> d in info
    ensures |Locations(info, ds)| == |ds|
  {
    if ds != [] {
      LocationsSize(info, ds[1..]);
    }
  }

  /**
   * The breakdown of `m` counts the country of every descendant once per occurrence, so its
   * counts sum to the number of descendants.
   */
  lemma {:induction false} BreakdownIsLocations(info: InfoMap, tree: Tree, rank: map<string, nat>, m: string)
    requires Ranked(tree, rank) && ChildrenKnown(info, tree)
    ensures CountryBreakdown(info, tree, rank, m) == Locations(info, Descendants(tree, rank, m))
    ensures |CountryBreakdown(info, tree, rank, m)| == |Descendants(tree, rank, m)|
    decreases Height(tree, rank, m), 1, 0
  {
    if m in tree {
      BreakdownOfLocations(info, tree, rank, tree[m], Height(tree, rank, m));
    }
    DescendantsKnown(info, tree, rank, m);
    LocationsSize(info, Descendants(tree, rank, m));
  }

  lemma {:induction false} BreakdownOfLocations(info: InfoMap, tree: Tree, rank: map<string, nat>, cs: seq<string>, bound: nat)
    requires Ranked(tree, rank) && ChildrenKnown(info, tree) && Below(tree, rank, cs, bound)
    requires forall c :: c in cs ==> c in info
    ensures BreakdownOf(info, tree, rank, cs, bound) == Locations(info, DescendantsOf(tree, rank, cs, bound))
    decreases bound, 0, |cs|
  {
    if cs != [] {
      var emp := cs[0];
      var under := Descendants(tree, rank, emp);
      var rest := DescendantsOf(tree, rank, cs[1..], bound);
      BreakdownIsLocations(info, tree, rank, emp);
      BreakdownOfLocations(info, tree, rank, cs[1..], bound);
      LocationsAppend(info, [emp] + under, rest);
      LocationsAppend(info, [emp], under);
      assert Locations(info, [emp]) == multiset{info[emp].location} by {
        assert [emp][1..] == [];
      }
    }
  }

  // ----- summary rows -----

  /** One row of the summary: the manager's own columns, its country counts and its depth. */
  datatype SummaryRow = SummaryRow(
    manager: string,
    level: string,
    bis: nat,
    sns: nat,
    total: nat,
    countries: multiset<string>,
    indent: nat)

  /** The sort key of the source: a report's rolled-up total. */
  function TotalKey(info: InfoMap): string -> int {
    e => if e in info then info[e].total else 0
  }

  /** The reports of `m` in the order the summary and the chart visit them. */
  function SortedReports(info: InfoMap, tree: Tree, m: string): (r: seq<string>)
    ensures SortedDesc(r, TotalKey(info))
    ensures multiset(r) == multiset(Children(tree, m))
    ensures forall c :: c in r <==> c in Children(tree, m)
  {
    SortMembers(Children(tree, m), TotalKey(info));
    SortDesc(Children(tree, m), TotalKey(info))
  }

  /** Reports with equal totals keep their order in the children sequence. */
  lemma SortedReportsStable(info: InfoMap, tree: Tree, m: string, k: int)
    ensures WithKey(SortedReports(info, tree, m), TotalKey(info), k) == WithKey(Children(tree, m), TotalKey(info), k)
  {
    SortStable(Children(tree, m), TotalKey(info), k);
  }

  /** The row copies the columns of its manager's entry. */
  ghost predicate CopiesEntry(info: InfoMap, row: SummaryRow) {
    && row.manager in info
    && row.level == info[row.manager].level
    && row.bis == info[row.manager].bis
    && row.sns == info[row.manager].sns
    && row.total == info[row.manager].total
  }

  /**
   * `build_summary`: the row of `m` at indent `level`, then the rows of its internal reports,
   * by descending total, one level deeper; nothing when `m` has no entry.
   */
  function BuildSummary(info: InfoMap, tree: Tree, ghost rank: map<string, nat>, m: string, level: nat): (rows: seq<SummaryRow>)
    requires Ranked(tree, rank) && ChildrenKnown(info, tree)
    ensures forall row :: row in rows ==> CopiesEntry(info, row)
    decreases Height(tree, rank, m), 1, 0
  {
    if m !in info then []
    else
      ChildrenBelow(tree, rank, m);
      [RootRow(info, tree, rank, m, level)] + SummaryOf(info, tree, rank, SortedReports(info, tree, m), level + 1, Height(tree, rank, m))
  }

  /** The row `build_summary` emits for `m` itself. */
  function RootRow(info: InfoMap, tree: Tree, ghost rank: map<string, nat>, m: string, level: nat): SummaryRow
    requires Ranked(tree, rank) && ChildrenKnown(info, tree) && m in info
  {
    var data := info[m];
    SummaryRow(m, data.level, data.bis, data.sns, data.total, CountryBreakdown(info, tree, rank, m), level)
  }

  /** The rows of `m` are its own row and then those of its reports in visiting order. */
  lemma SummaryUnfold(info: InfoMap, tree: Tree, rank: map<string, nat>, m: string, level: nat)
    requires Ranked(tree, rank) && ChildrenKnown(info, tree) && m in info
    ensures Below(tree, rank, SortedReports(info, tree, m), Height(tree, rank, m))
    ensures forall c :: c in SortedReports(info, tree, m) ==> c in info && c in Children(tree, m)
    ensures BuildSummary(info, tree, rank, m, level)
      == [RootRow(info, tree, rank, m, level)] + SummaryOf(info, tree, rank, SortedReports(info, tree, m), level + 1, Height(tree, rank, m))
  {
    ChildrenBelow(tree, rank, m);
  }

  /** The descendants reached through the sorted reports are those of `m`, reordered. */
  lemma SortedDescendants(info: InfoMap, tree: Tree, rank: map<string, nat>, m: string)
    requires Ranked(tree, rank) && Below(tree, rank, SortedReports(info, tree, m), Height(tree, rank, m))
    ensures multiset(Internal(tree, DescendantsOf(tree, rank, SortedReports(info, tree, m), Height(tree, rank, m))))
      == multiset(Internal(tree, Descendants(tree, rank, m)))
  {
    var bound := Height(tree, rank, m);
    ChildrenBelow(tree, rank, m);
    DescendantsOfPerm(tree, rank, SortedReports(info, tree, m), Children(tree, m), bound);
    InternalPerm(tree, DescendantsOf(tree, rank, SortedReports(info, tree, m), bound), DescendantsOf(tree, rank, Children(tree, m), bound));
    assert Descendants(tree, rank, m) == DescendantsOf(tree, rank, Children(tree, m), bound);
  }

  function SummaryOf(info: InfoMap, tree: Tree, ghost rank: map<string, nat>, cs: seq<string>, level: nat, ghost bound: nat): (rows: seq<SummaryRow>)
    requires Ranked(tree, rank) && ChildrenKnown(info, tree) && Below(tree, rank, cs, bound)
    ensures forall row :: row in rows ==> CopiesEntry(info, row)
    decreases bound, 0, |cs|
  {
    if cs == [] then []
    else
      var block := if cs[0] in tree then BuildSummary(info, tree, rank, cs[0], level) else [];
      block + SummaryOf(info, tree, rank, cs[1..], level, bound)
  }

  /** The manager column of the rows. */
  function RowNames(rows: seq<SummaryRow>): (names: seq<string>)
    ensures |names| == |rows| && forall i :: 0 <= i < |rows| ==> names[i] == rows[i].manager
  {
    seq(|rows|, i requires 0 <= i < |rows| => rows[i].manager)
  }

  lemma RowNamesAppend(a: seq<SummaryRow>, b: seq<SummaryRow>)
    ensures RowNames(a + b) == RowNames(a) + RowNames(b)
  {
  }

  /** The internal names of `s` (those that are managers), in order, with multiplicity. */
  function Internal(tree: Tree, s: seq<string>): seq<string> {
    if s == [] then []
    else (if s[0] in tree then [s[0]] else []) + Internal(tree, s[1..])
  }

  lemma {:induction false} InternalAppend(tree: Tree, a: seq<string>, b: seq<string>)
    ensures Internal(tree, a + b) == Internal(tree, a) + Internal(tree, b)
  {
    if a == [] {
      assert a + b == b;
    } else {
      assert (a + b)[1..] == a[1..] + b;
      InternalAppend(tree, a[1..], b);
    }
  }

  lemma {:induction false} InternalMembers(tree: Tree, s: seq<string>)
    ensures forall x :: x in Internal(tree, s) <==> x in s && x in tree
  {
    if s != [] {
      InternalMembers(tree, s[1..]);
      assert s == [s[0]] + s[1..];
    }
  }

  /** Each internal name keeps its multiplicity; every other name is dropped. */
  lemma {:induction false} InternalCount(tree: Tree, s: seq<string>)
    ensures forall x :: multiset(Internal(tree, s))[x] == if x in tree then multiset(s)[x] else 0
  {
    if s != [] {
      InternalCount(tree, s[1..]);
      assert s == [s[0]] + s[1..];
    }
  }

  /** Filtering commutes with reordering. */
  lemma InternalPerm(tree: Tree, a: seq<string>, b: seq<string>)
    requires multiset(a) == multiset(b)
    ensures multiset(Internal(tree, a)) == multiset(Internal(tree, b))
  {
    InternalCount(tree, a);
    InternalCount(tree, b);
    forall x ensures multiset(Internal(tree, a))[x] == multiset(Internal(tree, b))[x] {
    }
  }

  /**
   * The rows of `build_summary` name `m` and then exactly its internal descendants, each as
   * often as it occurs in the subtree; a name with no entry yields no rows.
   */
  lemma {:induction false} SummaryNames(info: InfoMap, tree: Tree, rank: map<string, nat>, m: string, level: nat)
    requires Ranked(tree, rank) && ChildrenKnown(info, tree)
    ensures m !in info ==> BuildSummary(info, tree, rank, m, level) == []
    ensures m in info ==>
      multiset(RowNames(BuildSummary(info, tree, rank, m, level))) == multiset([m] + Internal(tree, Descendants(tree, rank, m)))
    decreases Height(tree, rank, m), 1, 0
  {
    if m in info {
      var bound := Height(tree, rank, m);
      var cs := SortedReports(info, tree, m);
      var sub := SummaryOf(info, tree, rank, cs, level + 1, bound);
      var root := RootRow(info, tree, rank, m, level);
      SummaryUnfold(info, tree, rank, m, level);
      SummaryOfNames(info, tree, rank, cs, level + 1, bound);
      SortedDescendants(info, tree, rank, m);
      RowNamesAppend([root], sub);
      assert RowNames([root]) == [m];
      MultisetCons(m, RowNames(sub), Internal(tree, Descendants(tree, rank, m)));
    }
  }

  lemma MultisetCons(x: string, a: seq<string>, b: seq<string>)
    requires multiset(a) == multiset(b)
    ensures multiset([x] + a) == multiset([x] + b)
  {
  }

  lemma {:induction false} SummaryOfNames(info: InfoMap, tree: Tree, rank: map<string, nat>, cs: seq<string>, level: nat, bound: nat)
    requires Ranked(tree, rank) && ChildrenKnown(info, tree) && Below(tree, rank, cs, bound)
    requires forall c :: c in cs ==> c in info
    ensures multiset(RowNames(SummaryOf(info, tree, rank, cs, level, bound))) == multiset(Internal(tree, DescendantsOf(tree, rank, cs, bound)))
    decreases bound, 0, |cs|
  {
    if cs != [] {
      var c := cs[0];
      var under := Descendants(tree, rank, c);
      var block := if c in tree then BuildSummary(info, tree, rank, c, level) else [];
      var rest := SummaryOf(info, tree, rank, cs[1..], level, bound);
      SummaryOfNames(info, tree, rank, cs[1..], level, bound);
      SummaryNames(info, tree, rank, c, level);
      RowNamesAppend(block, rest);
      InternalAppend(tree, [c] + under, DescendantsOf(tree, rank, cs[1..], bound));
      InternalAppend(tree, [c], under);
      assert Internal(tree, [c]) == if c in tree then [c] else [] by {
        assert [c][1..] == [];
      }
    }
  }

  // ----- the shape of the rows -----

  /**
   * Row `j` is the parent of row `i`: it is the nearest earlier row that is shallower than
   * row `i`, it is exactly one level up, and its manager has row `i`'s manager as a report.
   */
  ghost predicate ParentRow(rows: seq<SummaryRow>, tree: Tree, j: int, i: int)
    requires 0 <= i < |rows|
  {
    && 0 <= j < i && rows[j].indent + 1 == rows[i].indent && rows[i].manager in Children(tree, rows[j].manager)
    && forall k :: j < k < i ==> rows[k].indent >= rows[i].indent
  }

  /** Row `i` has a parent row. */
  ghost predicate HasParent(rows: seq<SummaryRow>, tree: Tree, i: int)
    requires 0 <= i < |rows|
  {
    exists j :: ParentRow(rows, tree, j, i)
  }

  lemma ParentAt(rows: seq<SummaryRow>, tree: Tree, i: int, j: int)
    requires 0 <= j < i < |rows|
    requires rows[j].indent + 1 == rows[i].indent && rows[i].manager in Children(tree, rows[j].manager)
    requires forall k :: j < k < i ==> rows[k].indent >= rows[i].indent
    ensures HasParent(rows, tree, i)
  {
    assert ParentRow(rows, tree, j, i);
  }

  /** A parent found in a prefix is still found after appending. */
  lemma HasParentKeep(a: seq<SummaryRow>, b: seq<SummaryRow>, tree: Tree, i: int)
    requires 0 <= i < |a| && HasParent(a, tree, i)
    ensures HasParent(a + b, tree, i)
  {
    var j :| ParentRow(a, tree, j, i);
    forall k | j < k < i ensures (a + b)[k].indent >= (a + b)[i].indent {
      assert (a + b)[k] == a[k];
    }
    ParentAt(a + b, tree, i, j);
  }

  /** A parent found in a suffix is still found after prepending, shifted. */
  lemma HasParentShift(a: seq<SummaryRow>, b: seq<SummaryRow>, tree: Tree, i: int)
    requires 0 <= i < |b| && HasParent(b, tree, i)
    ensures HasParent(a + b, tree, |a| + i)
  {
    var j :| ParentRow(b, tree, j, i);
    forall k | |a| + j < k < |a| + i ensures (a + b)[k].indent >= (a + b)[|a| + i].indent {
      assert (a + b)[k] == b[k - |a|];
    }
    ParentAt(a + b, tree, |a| + i, |a| + j);
  }

  /** Rows of one subtree: its root first, at `level`, then deeper rows under earlier parents. */
  ghost predicate TreeShape(rows: seq<SummaryRow>, tree: Tree, m: string, level: nat) {
    && rows != [] && rows[0].manager == m && rows[0].indent == level
    && (forall i :: 0 < i < |rows| ==> rows[i].indent > level)
    && (forall i {:trigger HasParent(rows, tree, i)} :: 0 < i < |rows| ==> HasParent(rows, tree, i))
  }

  /** Rows of consecutive subtrees rooted at names of `cs`, all at `level`. */
  ghost predicate ForestShape(rows: seq<SummaryRow>, tree: Tree, cs: seq<string>, level: nat) {
    && (rows != [] ==> rows[0].indent == level)
    && (forall i :: 0 <= i < |rows| ==> rows[i].indent >= level)
    && (forall i :: 0 <= i < |rows| && rows[i].indent == level ==> rows[i].manager in cs)
    && (forall i {:trigger HasParent(rows, tree, i)} :: 0 <= i < |rows| && rows[i].indent > level ==> HasParent(rows, tree, i))
  }

  /** A root row over a forest of its reports is a tree. */
  lemma ShapeCons(r0: SummaryRow, sub: seq<SummaryRow>, tree: Tree, cs: seq<string>, level: nat)
    requires r0.indent == level && forall c :: c in cs ==> c in Children(tree, r0.manager)
    requires ForestShape(sub, tree, cs, level + 1)
    ensures TreeShape([r0] + sub, tree, r0.manager, level)
  {
    forall i | 0 < i < |[r0] + sub| ensures ([r0] + sub)[i].indent > level && HasParent([r0] + sub, tree, i) {
      ShapeConsAt(r0, sub, tree, cs, level, i);
    }
  }

  lemma ShapeConsAt(r0: SummaryRow, sub: seq<SummaryRow>, tree: Tree, cs: seq<string>, level: nat, i: int)
    requires r0.indent == level && forall c :: c in cs ==> c in Children(tree, r0.manager)
    requires ForestShape(sub, tree, cs, level + 1)
    requires 0 < i < |[r0] + sub|
    ensures ([r0] + sub)[i].indent > level && HasParent([r0] + sub, tree, i)
  {
    var rows := [r0] + sub;
    var k := i - 1;
    assert rows[i] == sub[k] && rows[0] == r0;
    assert sub[k].indent >= level + 1;
    if sub[k].indent == level + 1 {
      assert sub[k].manager in cs;
      forall k' | 0 < k' < i ensures rows[k'].indent >= rows[i].indent {
        assert rows[k'] == sub[k' - 1];
      }
      ParentAt(rows, tree, i, 0);
    } else {
      assert HasParent(sub, tree, k);
      HasParentShift([r0], sub, tree, k);
      assert |[r0]| + k == i;
    }
  }

  /** A tree rooted at the first name followed by a forest of the rest is a forest. */
  lemma ShapeConcat(block: seq<SummaryRow>, rest: seq<SummaryRow>, tree: Tree, cs: seq<string>, level: nat)
    requires cs != []
    requires block == [] || TreeShape(block, tree, cs[0], level)
    requires ForestShape(rest, tree, cs[1..], level)
    ensures ForestShape(block + rest, tree, cs, level)
  {
    var rows := block + rest;
    forall i | 0 <= i < |rows|
      ensures rows[i].indent >= level
      ensures rows[i].indent == level ==> rows[i].manager in cs
      ensures rows[i].indent > level ==> HasParent(rows, tree, i)
    {
      if i < |block| {
        ShapeConcatFront(block, rest, tree, cs, level, i);
      } else {
        ShapeConcatBack(block, rest, tree, cs, level, i);
      }
    }
  }

  lemma ShapeConcatFront(block: seq<SummaryRow>, rest: seq<SummaryRow>, tree: Tree, cs: seq<string>, level: nat, i: int)
    requires cs != [] && TreeShape(block, tree, cs[0], level)
    requires 0 <= i < |block|
    ensures (block + rest)[i].indent >= level
    ensures (block + rest)[i].indent == level ==> (block + rest)[i].manager in cs
    ensures (block + rest)[i].indent > level ==> HasParent(block + rest, tree, i)
  {
    assert (block + rest)[i] == block[i];
    if i > 0 {
      HasParentKeep(block, rest, tree, i);
    }
  }

  lemma ShapeConcatBack(block: seq<SummaryRow>, rest: seq<SummaryRow>, tree: Tree, cs: seq<string>, level: nat, i: int)
    requires cs != [] && ForestShape(rest, tree, cs[1..], level)
    requires |block| <= i < |block| + |rest|
    ensures (block + rest)[i].indent >= level
    ensures (block + rest)[i].indent == level ==> (block + rest)[i].manager in cs
    ensures (block + rest)[i].indent > level ==> HasParent(block + rest, tree, i)
  {
    var k := i - |block|;
    assert (block + rest)[i] == rest[k];
    if rest[k].indent == level {
      assert rest[k].manager in cs[1..];
    } else if rest[k].indent > level {
      HasParentShift(block, rest, tree, k);
    }
  }

  /**
   * The summary of `m` starts with the row of `m` at `level`; every later row is deeper and
   * sits under an earlier row of its manager, one level up.
   */
  lemma {:induction false} SummaryShape(info: InfoMap, tree: Tree, rank: map<string, nat>, m: string, level: nat)
    requires Ranked(tree, rank) && ChildrenKnown(info, tree) && m in info
    ensures TreeShape(BuildSummary(info, tree, rank, m, level), tree, m, level)
    decreases Height(tree, rank, m), 1, 0
  {
    var cs := SortedReports(info, tree, m);
    SummaryUnfold(info, tree, rank, m, level);
    SummaryOfShape(info, tree, rank, cs, level + 1, Height(tree, rank, m));
    ShapeCons(RootRow(info, tree, rank, m, level), SummaryOf(info, tree, rank, cs, level + 1, Height(tree, rank, m)), tree, cs, level);
  }

  lemma {:induction false} SummaryOfShape(info: InfoMap, tree: Tree, rank: map<string, nat>, cs: seq<string>, level: nat, bound: nat)
    requires Ranked(tree, rank) && ChildrenKnown(info, tree) && Below(tree, rank, cs, bound)
    requires forall c :: c in cs ==> c in info
    ensures ForestShape(SummaryOf(info, tree, rank, cs, level, bound), tree, cs, level)
    decreases bound, 0, |cs|
  {
    if cs != [] {
      var rest := SummaryOf(info, tree, rank, cs[1..], level, bound);
      SummaryOfShape(info, tree, rank, cs[1..], level, bound);
      if cs[0] in tree {
        SummaryShape(info, tree, rank, cs[0], level);
        ShapeConcat(BuildSummary(info, tree, rank, cs[0], level), rest, tree, cs, level);
      } else {
        ShapeConcat([], rest, tree, cs, level);
        assert SummaryOf(info, tree, rank, cs, level, bound) == [] + rest;
      }
    }
  }

  /**
   * In the rows of one subtree, two rows at one indent with only deeper rows between them
   * have the same parent row: they are reports of one manager.
   */
  lemma SiblingsShareParent(rows: seq<SummaryRow>, tree: Tree, m: string, level: nat, i: int, i': int)
    requires TreeShape(rows, tree, m, level) && Siblings(rows, i, i')
    ensures exists j :: ParentRow(rows, tree, j, i) && ParentRow(rows, tree, j, i')
  {
    assert i > 0 by {
      if i == 0 {
        assert rows[i'].indent > level;
      }
    }
    assert HasParent(rows, tree, i) && HasParent(rows, tree, i');
    var j :| ParentRow(rows, tree, j, i');
    var p :| ParentRow(rows, tree, p, i);
    assert j < i;
    assert p == j;
  }

  // ----- the order of the rows -----

  /** Rows `i` and `j` are reports of one manager: the same indent, and only deeper rows between. */
  ghost predicate Siblings(rows: seq<SummaryRow>, i: int, j: int) {
    && 0 <= i < j < |rows| && rows[i].indent == rows[j].indent
    && forall k :: i < k < j ==> rows[k].indent > rows[i].indent
  }

  /** Reports of one manager come by descending total. */
  ghost predicate SiblingsOrdered(rows: seq<SummaryRow>) {
    forall i, j {:trigger Siblings(rows, i, j)} :: Siblings(rows, i, j) ==> rows[i].total >= rows[j].total
  }

  /** A row above deeper rows adds no pair of siblings. */
  lemma SiblingsCons(r: SummaryRow, b: seq<SummaryRow>)
    requires forall k :: 0 <= k < |b| ==> b[k].indent > r.indent
    requires SiblingsOrdered(b)
    ensures SiblingsOrdered([r] + b)
  {
    forall i, j | Siblings([r] + b, i, j) ensures ([r] + b)[i].total >= ([r] + b)[j].total {
      SiblingsConsAt(r, b, i, j);
    }
  }

  lemma SiblingsConsAt(r: SummaryRow, b: seq<SummaryRow>, i: int, j: int)
    requires forall k :: 0 <= k < |b| ==> b[k].indent > r.indent
    requires SiblingsOrdered(b)
    requires Siblings([r] + b, i, j)
    ensures ([r] + b)[i].total >= ([r] + b)[j].total
  {
    var rows := [r] + b;
    assert rows[j] == b[j - 1];
    if i == 0 {
      assert false;
    }
    assert rows[i] == b[i - 1];
    forall k | i - 1 < k < j - 1 ensures b[k].indent > b[i - 1].indent {
      assert rows[k + 1] == b[k];
    }
    assert Siblings(b, i - 1, j - 1);
  }

  /**
   * A subtree whose root total bounds the totals of the later roots, followed by those later
   * subtrees, keeps reports of one manager in order.
   */
  lemma SiblingsConcat(a: seq<SummaryRow>, b: seq<SummaryRow>, level: nat)
    requires a != [] ==> a[0].indent == level && forall k :: 0 < k < |a| ==> a[k].indent > level
    requires b != [] ==> b[0].indent == level
    requires forall k :: 0 <= k < |b| ==> b[k].indent >= level
    requires a != [] ==> forall k :: 0 <= k < |b| && b[k].indent == level ==> b[k].total <= a[0].total
    requires SiblingsOrdered(a) && SiblingsOrdered(b)
    ensures SiblingsOrdered(a + b)
  {
    forall i, j | Siblings(a + b, i, j) ensures (a + b)[i].total >= (a + b)[j].total {
      if j < |a| {
        SiblingsFront(a, b, i, j);
      } else if i >= |a| {
        SiblingsBack(a, b, i, j);
      } else {
        SiblingsAcross(a, b, level, i, j);
      }
    }
  }

  lemma SiblingsFront(a: seq<SummaryRow>, b: seq<SummaryRow>, i: int, j: int)
    requires SiblingsOrdered(a) && Siblings(a + b, i, j) && j < |a|
    ensures (a + b)[i].total >= (a + b)[j].total
  {
    forall k | i < k < j ensures a[k].indent > a[i].indent {
      assert (a + b)[k] == a[k];
    }
    assert (a + b)[i] == a[i] && (a + b)[j] == a[j];
    assert Siblings(a, i, j);
  }

  lemma SiblingsBack(a: seq<SummaryRow>, b: seq<SummaryRow>, i: int, j: int)
    requires SiblingsOrdered(b) && Siblings(a + b, i, j) && i >= |a|
    ensures (a + b)[i].total >= (a + b)[j].total
  {
    var n := |a|;
    forall k | i - n < k < j - n ensures b[k].indent > b[i - n].indent {
      assert (a + b)[k + n] == b[k];
    }
    assert (a + b)[i] == b[i - n] && (a + b)[j] == b[j - n];
    assert Siblings(b, i - n, j - n);
  }

  lemma SiblingsAcross(a: seq<SummaryRow>, b: seq<SummaryRow>, level: nat, i: int, j: int)
    requires a != [] ==> a[0].indent == level && forall k :: 0 < k < |a| ==> a[k].indent > level
    requires b != [] ==> b[0].indent == level
    requires forall k :: 0 <= k < |b| ==> b[k].indent >= level
    requires a != [] ==> forall k :: 0 <= k < |b| && b[k].indent == level ==> b[k].total <= a[0].total
    requires Siblings(a + b, i, j) && i < |a| <= j
    ensures (a + b)[i].total >= (a + b)[j].total
  {
    var n := |a|;
    assert (a + b)[n] == b[0];
    assert (a + b)[i] == a[i] && (a + b)[j] == b[j - n];
    if i > 0 {
      assert false;
    }
  }

  /** A row of the first of descending names has a total at least that of a row of a later name. */
  lemma HeadBoundsLater(info: InfoMap, cs: seq<string>, first: SummaryRow, later: SummaryRow)
    requires cs != [] && SortedDesc(cs, TotalKey(info))
    requires first.manager == cs[0] && CopiesEntry(info, first)
    requires later.manager in cs && CopiesEntry(info, later)
    ensures later.total <= first.total
  {
    SortedHeadMax(cs, TotalKey(info));
    assert TotalKey(info)(later.manager) <= TotalKey(info)(cs[0]);
  }

  /** Reports of one manager appear in the summary by descending total. */
  lemma {:induction false} SummarySiblings(info: InfoMap, tree: Tree, rank: map<string, nat>, m: string, level: nat)
    requires Ranked(tree, rank) && ChildrenKnown(info, tree) && m in info
    ensures SiblingsOrdered(BuildSummary(info, tree, rank, m, level))
    decreases Height(tree, rank, m), 1, 0
  {
    var cs := SortedReports(info, tree, m);
    SummaryUnfold(info, tree, rank, m, level);
    var sub := SummaryOf(info, tree, rank, cs, level + 1, Height(tree, rank, m));
    var root := RootRow(info, tree, rank, m, level);
    assert forall k :: 0 <= k < |sub| ==> sub[k].indent > root.indent by {
      SummaryOfShape(info, tree, rank, cs, level + 1, Height(tree, rank, m));
    }
    assert SiblingsOrdered(sub) by {
      SummaryOfSiblings(info, tree, rank, cs, level + 1, Height(tree, rank, m));
    }
    SiblingsCons(root, sub);
  }

  lemma {:induction false} SummaryOfSiblings(info: InfoMap, tree: Tree, rank: map<string, nat>, cs: seq<string>, level: nat, bound: nat)
    requires Ranked(tree, rank) && ChildrenKnown(info, tree) && Below(tree, rank, cs, bound)
    requires forall c :: c in cs ==> c in info
    requires SortedDesc(cs, TotalKey(info))
    ensures SiblingsOrdered(SummaryOf(info, tree, rank, cs, level, bound))
    decreases bound, 0, |cs|
  {
    if cs != [] {
      var rest := SummaryOf(info, tree, rank, cs[1..], level, bound);
      SummaryOfSiblings(info, tree, rank, cs[1..], level, bound);
      SummaryOfShape(info, tree, rank, cs[1..], level, bound);
      if cs[0] in tree {
        var block := BuildSummary(info, tree, rank, cs[0], level);
        SummarySiblings(info, tree, rank, cs[0], level);
        SummaryShape(info, tree, rank, cs[0], level);
        forall k | 0 <= k < |rest| && rest[k].indent == level ensures rest[k].total <= block[0].total {
          assert rest[k] in rest && rest[k].manager in cs[1..];
          HeadBoundsLater(info, cs, block[0], rest[k]);
        }
        SiblingsConcat(block, rest, level);
      } else {
        assert SummaryOf(info, tree, rank, cs, level, bound) == rest;
      }
    }
  }

  // ----- the rows directly under a manager -----

  /** The rows at indent `d`, in their order. */
  function AtIndent(rows: seq<SummaryRow>, d: nat): seq<SummaryRow> {
    if rows == [] then []
    else (if rows[0].indent == d then [rows[0]] else []) + AtIndent(rows[1..], d)
  }

  lemma {:induction false} AtIndentAppend(a: seq<SummaryRow>, b: seq<SummaryRow>, d: nat)
    ensures AtIndent(a + b, d) == AtIndent(a, d) + AtIndent(b, d)
  {
    if a == [] {
      assert a + b == b;
    } else {
      assert (a + b)[0] == a[0] && (a + b)[1..] == a[1..] + b;
      AtIndentAppend(a[1..], b, d);
    }
  }

  /** Rows all deeper than `d` have none at indent `d`. */
  lemma {:induction false} AtIndentDeeper(rows: seq<SummaryRow>, d: nat)
    requires forall i :: 0 <= i < |rows| ==> rows[i].indent > d
    ensures AtIndent(rows, d) == []
  {
    if rows != [] {
      assert forall i :: 0 <= i < |rows[1..]| ==> rows[1..][i] == rows[i + 1];
      AtIndentDeeper(rows[1..], d);
    }
  }

  /**
   * The rows directly under the row of `m` (those one level deeper) are the rows of its reports
   * that manage someone, in the visiting order of `SortedReports`.
   */
  lemma DirectRows(info: InfoMap, tree: Tree, rank: map<string, nat>, m: string, level: nat)
    requires Ranked(tree, rank) && ChildrenKnown(info, tree) && m in info
    ensures RowNames(AtIndent(BuildSummary(info, tree, rank, m, level), level + 1)) == Internal(tree, SortedReports(info, tree, m))
  {
    var cs := SortedReports(info, tree, m);
    var bound := Height(tree, rank, m);
    var sub := SummaryOf(info, tree, rank, cs, level + 1, bound);
    assert AtIndent(BuildSummary(info, tree, rank, m, level), level + 1) == AtIndent(sub, level + 1) by {
      SummaryUnfold(info, tree, rank, m, level);
      SkipRow(RootRow(info, tree, rank, m, level), sub, level + 1);
    }
    assert RowNames(AtIndent(sub, level + 1)) == Internal(tree, cs) by {
      SummaryUnfold(info, tree, rank, m, level);
      DirectRowsOf(info, tree, rank, cs, level + 1, bound);
    }
  }

  /** A row at another indent adds nothing at indent `d`. */
  lemma SkipRow(r: SummaryRow, rows: seq<SummaryRow>, d: nat)
    requires r.indent != d
    ensures AtIndent([r] + rows, d) == AtIndent(rows, d)
  {
    assert ([r] + rows)[0] == r && ([r] + rows)[1..] == rows;
  }

  lemma {:induction false} DirectRowsOf(info: InfoMap, tree: Tree, rank: map<string, nat>, cs: seq<string>, d: nat, bound: nat)
    requires Ranked(tree, rank) && ChildrenKnown(info, tree) && Below(tree, rank, cs, bound)
    requires forall c :: c in cs ==> c in info
    ensures RowNames(AtIndent(SummaryOf(info, tree, rank, cs, d, bound), d)) == Internal(tree, cs)
    decreases |cs|
  {
    if cs != [] {
      var rest := SummaryOf(info, tree, rank, cs[1..], d, bound);
      assert forall c :: c in cs[1..] ==> c in cs;
      DirectRowsOf(info, tree, rank, cs[1..], d, bound);
      if cs[0] in tree {
        var block := BuildSummary(info, tree, rank, cs[0], d);
        assert SummaryOf(info, tree, rank, cs, d, bound) == block + rest;
        AtIndentAppend(block, rest, d);
        assert RowNames(AtIndent(block, d)) == [cs[0]] by {
          TopRowOnly(info, tree, rank, cs[0], d);
        }
        RowNamesAppend(AtIndent(block, d), AtIndent(rest, d));
      } else {
        assert SummaryOf(info, tree, rank, cs, d, bound) == rest;
      }
    }
  }

  /** In the rows of one subtree only its root's row sits at the subtree's own indent. */
  lemma TopRowOnly(info: InfoMap, tree: Tree, rank: map<string, nat>, c: string, d: nat)
    requires Ranked(tree, rank) && ChildrenKnown(info, tree) && c in info
    ensures RowNames(AtIndent(BuildSummary(info, tree, rank, c, d), d)) == [c]
  {
    var rows := BuildSummary(info, tree, rank, c, d);
    SummaryShape(info, tree, rank, c, d);
    assert rows == [rows[0]] + rows[1..];
    AtIndentAppend([rows[0]], rows[1..], d);
    assert AtIndent([rows[0]], d) == [rows[0]] by {
      assert [rows[0]][1..] == [];
    }
    assert forall i :: 0 <= i < |rows[1..]| ==> rows[1..][i] == rows[i + 1];
    AtIndentDeeper(rows[1..], d);
  }

  /** Keeping the managers commutes with keeping the names of one key. */
  lemma {:induction false} InternalWithKey(tree: Tree, s: seq<string>, key: string -> int, k: int)
    ensures WithKey(Internal(tree, s), key, k) == Internal(tree, WithKey(s, key, k))
  {
    if s != [] {
      InternalWithKey(tree, s[1..], key, k);
      var w := if key(s[0]) == k then [s[0]] else [];
      InternalAppend(tree, w, WithKey(s[1..], key, k));
      assert Internal(tree, w) == if s[0] in tree then w else [] by {
        if w != [] {
          assert w[1..] == [];
        }
      }
      assert WithKey(s, key, k) == w + WithKey(s[1..], key, k);
      if s[0] in tree {
        assert Internal(tree, s) == [s[0]] + Internal(tree, s[1..]);
        WithKeyCons(s[0], Internal(tree, s[1..]), key, k);
      } else {
        assert Internal(tree, s) == Internal(tree, s[1..]);
      }
    }
  }

  /**
   * The rows directly under the row of `m` with one total appear in the order of `m`'s
   * reports, as the stable sort leaves ties.
   */
  lemma DirectRowsStable(info: InfoMap, tree: Tree, rank: map<string, nat>, m: string, level: nat, k: int)
    requires Ranked(tree, rank) && ChildrenKnown(info, tree) && m in info
    ensures WithKey(RowNames(AtIndent(BuildSummary(info, tree, rank, m, level), level + 1)), TotalKey(info), k)
      == Internal(tree, WithKey(Children(tree, m), TotalKey(info), k))
  {
    DirectRows(info, tree, rank, m, level);
    InternalWithKey(tree, SortedReports(info, tree, m), TotalKey(info), k);
    SortedReportsStable(info, tree, m, k);
  }

  // ----- country columns -----

  /** The country counts of a row are the breakdown of its manager. */
  ghost predicate HasBreakdown(info: InfoMap, tree: Tree, rank: map<string, nat>, row: SummaryRow)
    requires Ranked(tree, rank) && ChildrenKnown(info, tree)
  {
    row.countries == CountryBreakdown(info, tree, rank, row.manager)
  }

  /** Every row of the summary carries its manager's country breakdown. */
  lemma {:induction false} SummaryBreakdowns(info: InfoMap, tree: Tree, rank: map<string, nat>, m: string, level: nat)
    requires Ranked(tree, rank) && ChildrenKnown(info, tree)
    ensures forall row :: row in BuildSummary(info, tree, rank, m, level) ==> HasBreakdown(info, tree, rank, row)
    decreases Height(tree, rank, m), 1, 0
  {
    if m in info {
      SummaryUnfold(info, tree, rank, m, level);
      SummaryOfBreakdowns(info, tree, rank, SortedReports(info, tree, m), level + 1, Height(tree, rank, m));
    }
  }

  lemma {:induction false} SummaryOfBreakdowns(info: InfoMap, tree: Tree, rank: map<string, nat>, cs: seq<string>, level: nat, bound: nat)
    requires Ranked(tree, rank) && ChildrenKnown(info, tree) && Below(tree, rank, cs, bound)
    ensures forall row :: row in SummaryOf(info, tree, rank, cs, level, bound) ==> HasBreakdown(info, tree, rank, row)
    decreases bound, 0, |cs|
  {
    if cs != [] {
      assert cs[0] in cs && forall c :: c in cs[1..] ==> c in cs;
      if cs[0] in tree {
        SummaryBreakdowns(info, tree, rank, cs[0], level);
      }
      SummaryOfBreakdowns(info, tree, rank, cs[1..], level, bound);
    }
  }
}

=== FILE: text.dfy ===
/** Character and string helpers: decimal numerals, ASCII lower-casing and substring search. */
module Text {
  import opened Wrappers

  predicate IsDigit(c: char) {
    '0' <= c <= '9'
  }

  predicate AllDigits(s: string) {
    forall i :: 0 <= i < |s| ==> IsDigit(s[i])
  }

  /** A non-empty run of decimal digits, the only suffix shape the level rule accepts. */
  predicate IsNumeral(s: string) {
    |s| > 0 && AllDigits(s)
  }

  function DigitValue(c: char): (d: nat)
    requires IsDigit(c)
    ensures d < 10
  {
    c as int - '0' as int
  }

  function DigitChar(d: nat): (c: char)
    requires d < 10
    ensures IsDigit(c) && DigitValue(c) == d
  {
    ('0' as int + d) as char
  }

  /** The value of a string of decimal digits, most significant digit first (leading zeros allowed). */
  function DecimalValue(s: string): nat
    requires AllDigits(s)
  {
    if |s| == 0 then 0 else 10 * DecimalValue(s[..|s| - 1]) + DigitValue(s[|s| - 1])
  }

  /** The canonical decimal numeral of `n`, without leading zeros. */
  function DecimalString(n: nat): (s: string)
    ensures IsNumeral(s)
    ensures |s| > 1 ==> s[0] != '0'
  {
    if n < 10 then [DigitChar(n)] else DecimalString(n / 10) + [DigitChar(n % 10)]
  }

  /** Printing a number in decimal and reading it back gives the number. */
  lemma {:induction false} DecimalRoundTrip(n: nat)
    ensures DecimalValue(DecimalString(n)) == n
  {
    if n >= 10 {
      var s := DecimalString(n);
      assert s[..|s| - 1] == DecimalString(n / 10);
      DecimalRoundTrip(n / 10);
    }
  }

  /** Leading zeros do not change the value of a numeral. */
  lemma {:induction false} LeadingZeroValue(s: string)
    requires AllDigits(s)
    ensures DecimalValue("0" + s) == DecimalValue(s)
  {
    if |s| > 0 {
      assert ("0" + s)[..|"0" + s| - 1] == "0" + s[..|s| - 1];
      LeadingZeroValue(s[..|s| - 1]);
    }
  }

  /** The characters Python's `str.strip` removes, in their ASCII range. */
  predicate IsSpace(c: char) {
    c == ' ' || c == '\t' || c == '\n' || c == '\r' || c == '\U{B}' || c == '\U{C}'
  }

  /** `str.strip`: `s` without its leading and trailing white space. */
  function Strip(s: string): (r: string)
    ensures |r| <= |s|
    ensures |r| > 0 ==> !IsSpace(r[0]) && !IsSpace(r[|r| - 1])
    ensures (forall i :: 0 <= i < |s| ==> IsSpace(s[i])) ==> r == []
    decreases |s|
  {
    if |s| > 0 && IsSpace(s[0]) then Strip(s[1..])
    else if |s| > 0 && IsSpace(s[|s| - 1]) then Strip(s[..|s| - 1])
    else s
  }

  /** A string that neither starts nor ends with white space is its own strip. */
  lemma StripUnpadded(s: string)
    requires |s| > 0 && !IsSpace(s[0]) && !IsSpace(s[|s| - 1])
    ensures Strip(s) == s
  {
  }

  /** The longest prefix of `s` made of digits. */
  function LeadingDigits(s: string): (r: string)
    ensures r <= s && AllDigits(r)
    ensures |r| < |s| ==> !IsDigit(s[|r|])
  {
    if |s| > 0 && IsDigit(s[0]) then [s[0]] + LeadingDigits(s[1..]) else []
  }

  /** Index `i` holds the first digit of `s`. */
  ghost predicate FirstDigitAt(s: string, i: int) {
    0 <= i < |s| && IsDigit(s[i]) && forall j :: 0 <= j < i ==> !IsDigit(s[j])
  }

  /**
   * The value of the first maximal run of digits anywhere in `s`, as a regular-expression
   * search for one or more digits finds it; None when `s` holds no digit.
   */
  function FirstDigitRun(s: string): (r: Option<nat>)
    ensures r.None? <==> forall i :: 0 <= i < |s| ==> !IsDigit(s[i])
    ensures r.Some? ==> exists i :: FirstDigitAt(s, i) && r.value == DecimalValue(LeadingDigits(s[i..]))
  {
    if |s| == 0 then None
    else if IsDigit(s[0]) then
      assert FirstDigitAt(s, 0) && s[0..] == s;
      Some(DecimalValue(LeadingDigits(s)))
    else
      var r := FirstDigitRun(s[1..]);
      FirstDigitShift(s, r);
      r
  }

  /** A string that starts with a non-digit has the same first digit run as its tail. */
  lemma FirstDigitShift(s: string, r: Option<nat>)
    requires |s| > 0 && !IsDigit(s[0])
    requires r.None? <==> forall i :: 0 <= i < |s[1..]| ==> !IsDigit(s[1..][i])
    requires r.Some? ==> exists i :: FirstDigitAt(s[1..], i) && r.value == DecimalValue(LeadingDigits(s[1..][i..]))
    ensures r.None? <==> forall i :: 0 <= i < |s| ==> !IsDigit(s[i])
    ensures r.Some? ==> exists i :: FirstDigitAt(s, i) && r.value == DecimalValue(LeadingDigits(s[i..]))
  {
    if r.Some? {
      var i :| FirstDigitAt(s[1..], i) && r.value == DecimalValue(LeadingDigits(s[1..][i..]));
      assert s[1..][i..] == s[i + 1..];
      assert FirstDigitAt(s, i + 1);
    } else {
      forall i | 1 <= i < |s| ensures !IsDigit(s[i]) {
        assert s[i] == s[1..][i - 1];
      }
    }
  }

  function LowerChar(c: char): char {
    if 'A' <= c <= 'Z' then (c as int - 'A' as int + 'a' as int) as char else c
  }

  predicate IsUpper(c: char) {
    'A' <= c <= 'Z'
  }

  /** `a` and `b` are the same character up to ASCII case: equal, or an A-Z letter and its lower-case form. */
  predicate SameIgnoringCase(a: char, b: char) {
    || a == b
    || (IsUpper(a) && b as int == a as int + 32)
    || (IsUpper(b) && a as int == b as int + 32)
  }

  /** `s` and `t` are the same string up to ASCII case. */
  predicate EqualIgnoringCase(s: string, t: string) {
    |s| == |t| && forall i :: 0 <= i < |s| ==> SameIgnoringCase(s[i], t[i])
  }

  /**
   * ASCII lower-casing, character by character: no A-Z letter is left, and every character
   * is the same as the input's up to case.
   */
  function Lower(s: string): (r: string)
    ensures |r| == |s|
    ensures forall i :: 0 <= i < |r| ==> !IsUpper(r[i])
    ensures EqualIgnoringCase(s, r)
  {
    seq(|s|, i requires 0 <= i < |s| => LowerChar(s[i]))
  }

  /** Lower-casing twice is lower-casing once. */
  lemma LowerIdempotent(s: string)
    ensures Lower(Lower(s)) == Lower(s)
  {
    var r := Lower(s);
    assert forall i :: 0 <= i < |r| ==> Lower(r)[i] == r[i];
  }

  /** Two strings lower-case to the same string exactly when they are equal up to ASCII case. */
  lemma LowerEqualIff(s: string, t: string)
    ensures Lower(s) == Lower(t) <==> EqualIgnoringCase(s, t)
  {
    if EqualIgnoringCase(s, t) {
      forall i | 0 <= i < |s| ensures Lower(s)[i] == Lower(t)[i] {
        assert Lower(s)[i] == LowerChar(s[i]) && Lower(t)[i] == LowerChar(t[i]);
      }
    }
    if Lower(s) == Lower(t) {
      forall i | 0 <= i < |s| ensures SameIgnoringCase(s[i], t[i]) {
        assert LowerChar(s[i]) == Lower(s)[i] == Lower(t)[i] == LowerChar(t[i]);
      }
    }
  }

  /** `p` occurs in `s` starting at index `i`. */
  ghost predicate OccursAt(s: string, p: string, i: nat) {
    i + |p| <= |s| && s[i..i + |p|] == p
  }

  /** Substring test, as Python's `p in s`; the empty string occurs in every string. */
  function Contains(s: string, p: string): (r: bool)
    ensures r <==> exists i: nat :: OccursAt(s, p, i)
  {
    if p <= s then
      assert OccursAt(s, p, 0);
      true
    else if |s| == 0 then
      assert forall i: nat :: !OccursAt(s, p, i);
      false
    else
      var r := Contains(s[1..], p);
      assert forall i: nat :: OccursAt(s[1..], p, i) <==> OccursAt(s, p, i + 1) by {
        forall i: nat ensures OccursAt(s[1..], p, i) <==> OccursAt(s, p, i + 1) {
          if i + |p| <= |s[1..]| {
            assert s[1..][i..i + |p|] == s[i + 1..i + 1 + |p|];
          }
        }
      }
      assert !OccursAt(s, p, 0);
      assert (exists i: nat :: OccursAt(s, p, i)) ==> exists i: nat :: OccursAt(s[1..], p, i) by {
        if exists i: nat :: OccursAt(s, p, i) {
          var i: nat :| OccursAt(s, p, i);
          assert OccursAt(s[1..], p, i - 1);
        }
      }
      assert (exists i: nat :: OccursAt(s[1..], p, i)) ==> exists i: nat :: OccursAt(s, p, i) by {
        if exists i: nat :: OccursAt(s[1..], p, i) {
          var i: nat :| OccursAt(s[1..], p, i);
          assert OccursAt(s, p, i + 1);
        }
      }
      r
  }
}

=== FILE: wrappers.dfy ===
/** The optional value used for absent fields, unset filters and failed parses. */
module Wrappers {

  datatype Option<+T> = None | Some(value: T) {

    /** Returns the wrapped value, or `default` when there is none. */
    function GetOr(default: T): T {
      match this
      case Some(v) => v
      case None => default
    }
  }
}
